=== FILE: README.md ===
# smokeping-ha: the RRD reader, in Dafny

smokeping-ha is a small HTTP service that exposes the latest SmokePing
measurements to Home Assistant as JSON. For each configured target it resolves
the target's RRD file under the data directory. It refuses paths that resolve
outside that directory. It then runs `rrdtool lastupdate` on the file and turns
the printed text into a record. The record holds the median probe time in
milliseconds, the loss as a percentage of the configured pings per cycle, and
the timestamp of the sample, or an error message.

This project models that core and proves what it promises:

- `rrd_parse.dfy` (`RrdParse`) is `parse_rrd_lastupdate`. It covers the
  five format errors and the order they are checked in, the reversed scan for
  the data line, the sentinel and non-positive probe values it skips, the
  median latency and the capped loss.
- `target_data.dfy` (`TargetData`) is `get_target_data`. It covers the path
  join, the containment test, the existence check, the `rrdtool` run and its
  four failure modes. The host's `realpath`, `exists` and `subprocess.run` are
  the three functions of a `Host` value. The result carries the trace of host
  calls made.
- `settings.dfy` (`Settings`) is `_parse_int_env`, the settings with their
  defaults, the target table and `detect_isp`.
- `legacy.dfy` (`Legacy`) is the earlier `api/smokeping-api.py`, together with
  lemmas that say exactly where it and the current script differ.
- `pystr.dfy`, `pynum.dfy`, `stats.dfy` and `seqs.dfy` supply the pieces of
  Python the parser leans on:
  - `str.strip`, `split`, `startswith`, `in` and `lower`;
  - `int()` and `float()` of a string, `str(int)`, `int(float)` and `round`;
  - `sorted` and `statistics.median`;
  - a filter-map for the "collect what parses" loops.
- `wrappers.dfy` holds the `Option` type.

Integers are unbounded, and `int()` reads a decimal literal of any length; CPython's limit on the digits of an integer string is not modelled (see "## Left out"). Floats are read as exact reals, which
Python's binary doubles only approximate: `float()` accepts the finite decimal
literals Python accepts (underscores between digits, optional sign, fraction
and exponent) and reads them as their exact decimal value, with no rounding to
a double, no overflow to infinity and no underflow to zero. `round(x, n)`
rounds the exact value half-to-even on a grid of `n` decimals. "## Left out"
lists where this reading and Python part ways.

## Model

| member | source | states |
|---|---|---|
| RrdParse.ParseLastUpdate | api/smokeping_api.py:156-244 | an error record has null latency, loss and timestamp and carries one of the five format messages; a record without an error always has a timestamp; the loss never exceeds 100.0 |
| RrdParse.ParseRecord | api/smokeping_api.py:194-244 | once a data line splits into two parts, the result is "Invalid timestamp" or "Not enough values" with everything null, or a record with a timestamp and a loss of at most 100.0 |
| RrdParse.CheckLines | api/smokeping_api.py:171-191 | the first three checks reject only with "Invalid RRD output", "No data line found" or "Malformed data line", and the two parts they pass on hold no colon |
| RrdParse.FindDataLine | api/smokeping_api.py:177-182 | a data line found holds a colon |
| RrdParse.FindDataLineNone | api/smokeping_api.py:177-185 | no data line is found exactly when no line holds a colon |
| RrdParse.FindDataLineLast | api/smokeping_api.py:178-182 | the data line found is the stripped form of the last line holding a colon |
| RrdParse.StripColon | api/smokeping_api.py:179-180 | a line holds a colon exactly when its stripped form is non-empty and holds one, so stripping never changes which line is picked |
| RrdParse.LastColonUnique | api/smokeping_api.py:178-182 | at most one line is the last to hold a colon |
| RrdParse.ColonInLines | api/smokeping_api.py:171-180 | some line of the stripped, split output holds a colon exactly when the output does |
| RrdParse.ErrorInvalidOutput | api/smokeping_api.py:171-174 | "Invalid RRD output" is returned exactly when the stripped output has no line break |
| RrdParse.ErrorNoDataLine | api/smokeping_api.py:173-185 | "No data line found" is returned exactly when the stripped output has a line break and the output has no colon |
| RrdParse.ErrorMalformedLine | api/smokeping_api.py:189-191 | "Malformed data line" is returned exactly when the output has several lines and the last line holding a colon holds more than one |
| RrdParse.MessagesDistinct | api/smokeping_api.py:174-205 | the five format messages are pairwise different, so the message tells which check failed |
| RrdParse.ReadProbe | api/smokeping_api.py:212-220 | a token yields a probe time exactly when it is not `u`, `nan` or `-nan` in any case, `float()` accepts it and its value is positive; the time is that value |
| RrdParse.SentinelsSkipped | api/smokeping_api.py:214-215 | `U`, `u`, `NaN`, `-NAN` and `-nan` never yield a probe time |
| RrdParse.ProbeValues | api/smokeping_api.py:211-220 | the collected probe times are no more than the tokens and all positive |
| RrdParse.SkippedTokenIrrelevant | api/smokeping_api.py:212-220 | a token that yields no time can be removed from anywhere without changing the collected times |
| RrdParse.Milliseconds | api/smokeping_api.py:225 | a non-negative time in seconds gives a non-negative number of milliseconds |
| RrdParse.LatencyMs | api/smokeping_api.py:223-225 | the latency is null exactly when no probe time was collected |
| RrdParse.LatencyNone | api/smokeping_api.py:223-225 | the latency is null exactly when every probe token is rejected |
| RrdParse.LatencyOrderIndependent | api/smokeping_api.py:211-225 | reordering the probe tokens never changes the latency |
| RrdParse.LatencyIsMiddle | api/smokeping_api.py:225 | the latency is the middle of any ascending arrangement of the probe times (the middle one, or the mean of the two middle ones), times 1000, rounded to two places |
| RrdParse.AllSentinelsNoLatency | api/smokeping_api.py:212-225 | probes that are all sentinels give a null latency |
| RrdParse.UnknownProbesExample | tests/test_smokeping_api.py:55-66 | three `U` probes give a null latency |
| RrdParse.NanProbesExample | tests/test_smokeping_api.py:155-166 | `nan`, `-nan` and `NaN` probes give a null latency |
| RrdParse.CappedPercent | api/smokeping_api.py:233-236 | the percentage never exceeds 100.0 |
| RrdParse.LossPct | api/smokeping_api.py:229-238 | the loss is null exactly when the total is not positive or `float()` rejects the last token, and never exceeds 100.0 |
| RrdParse.LossOfValue | api/smokeping_api.py:232-236 | a non-negative token value between `n` and `n + 1` counts as `n` lost, so the loss is the capped percentage of `n` |
| RrdParse.LossOfNegativeValue | api/smokeping_api.py:232-236 | a negative token value between `n - 1` and `n` counts as `n`, truncating toward zero |
| RrdParse.PercentBelowCap | api/smokeping_api.py:233-236 | up to the total, the loss is the count's share of the total rounded to one place and the cap never fires |
| RrdParse.PercentSaturates | api/smokeping_api.py:234-236 | a count at or above the total gives exactly 100.0 |
| RrdParse.PercentMonotone | api/smokeping_api.py:233-236 | a larger count never gives a smaller loss |
| RrdParse.NegativePercent | api/smokeping_api.py:233-236 | only the top is capped: a count of -5 out of 20 gives -25.0 |
| RrdParse.LossOfDecimal | api/smokeping_api.py:232-233 | the loss of the decimal text of `n` is the capped percentage of `n` |
| RrdParse.FullLossExample | tests/test_smokeping_api.py:55-66 | 20 lost out of 20 gives 100.0 |
| RrdParse.CappedLossExample | tests/test_smokeping_api.py:182-193 | 25 lost out of 20 gives 100.0, not 125.0 |
| RrdParse.PaddedLines | api/smokeping_api.py:171 | whitespace around rendered output, such as the line break that ends the tool's standard output or blanks before the header, does not change the lines the parser cuts |
| RrdParse.RenderedRecord | api/smokeping_api.py:171-191 | for output laid out as rrdtool prints it (a header line, a blank line and `stamp: v1 v2 …`, with any whitespace before or after, the final line break included), the first checks pass the stamp and the joined values on |
| RrdParse.ParseRendered | api/smokeping_api.py:156-244 | parsing such output, surrounding whitespace included, gives back the stamp as the timestamp, skips the first field as the uptime, reads the last as the loss count and the fields between as probe times, or reports the timestamp or value-count error |
| RrdParse.ParseRenderedStamp | api/smokeping_api.py:194-197 | with the stamp written as `str(ts)`, at least two fields and any surrounding whitespace, the parse succeeds with timestamp `ts` |
| RrdParse.DataLineAloneRejected | api/smokeping_api.py:171-174 | a data line with only whitespace around it and no header is rejected with "Invalid RRD output" |
| TargetData.GetTargetData | api/smokeping_api.py:247-302 | the two paths are resolved first; the tool is run only on a target that is within the data directory and exists, with argv `rrdtool lastupdate <resolved path>` and a 5-second timeout; a record without an error implies the tool was run |
| TargetData.FromOutcome | api/smokeping_api.py:278-302 | exit status 0 gives the parse of the tool's output; a timeout gives "rrdtool timeout", a missing program "rrdtool not installed", any other exception "Unexpected error reading RRD file" and a non-zero exit "rrdtool error reading file", each with null measurements |
| TargetData.FetchMessagesDistinct | api/smokeping_api.py:264-302 | the six messages of `get_target_data` are pairwise different and differ from the parser's five, whatever the target path |
| TargetData.NotFound | api/smokeping_api.py:271-276 | a target within the data directory that does not exist gives "RRD file not found: " followed by the relative target path, and the tool is not run |
| TargetData.MessageTellsOutcome | api/smokeping_api.py:271-302 | each message after the containment test comes back exactly when its cause occurred: not found, timeout, missing program, other exception, non-zero exit |
| TargetData.PathJoin | api/smokeping_api.py:258 | an absolute target path replaces the directory; otherwise the result starts with the directory and ends with the target path |
| TargetData.PathJoinComponents | api/smokeping_api.py:258 | joining a relative path appends its components to the directory's |
| TargetData.WithinComponents | api/smokeping_api.py:262-264 | the textual containment test holds exactly when the base's `/`-separated components are the first components of the target's |
| TargetData.SiblingRejected | api/smokeping_api.py:264 | a sibling whose name only begins with the base's name (`/var/lib/smokeping-evil` for `/var/lib/smokeping`) is outside it |
| TargetData.RootBaseAcceptsOnlyRoot | api/smokeping_api.py:262-264 | with the data directory at `/`, a resolved path without doubled separators is accepted only if it is `/` itself, so every file is refused |
| TargetData.EscapeRefused | api/smokeping_api.py:262-269 | "Invalid path" is returned exactly when the containment test fails, and then nothing is checked for existence or run |
| TargetData.ErrorMessages | api/smokeping_api.py:264-302 | an error leaves both measurements null, and its message is one of five fixed messages, "RRD file not found: " followed by the relative target path, or one of the parser's five messages |
| TargetData.NothingLeaks | api/smokeping_api.py:285-302 | the result does not depend on the tool's error stream or on the text of an exception raised while running it |
| TargetData.Success | api/smokeping_api.py:262-294 | a record without an error comes back exactly when the target is within the directory, exists, and the tool exits with 0 printing text the parser accepts; it is then the parse of that text |
| TargetData.PlainTargetAccepted | tests/test_smokeping_api.py:229-247 | a relative target under a directory whose paths resolve to themselves passes the containment test |
| TargetData.TraversalRefused | tests/test_smokeping_api.py:249-264 | `../../../etc/passwd` resolving to `/etc/passwd` is refused with "Invalid path" before any existence check or run |
| Settings.ParseIntEnv | api/smokeping_api.py:55-85 | the setting is the default, or the value `int()` reads from the variable and that value is at least the minimum; an unset, unparsable or too-small value gives the default |
| Settings.ParseIntEnvAtLeast | api/smokeping_api.py:71-79 | when the default meets the minimum, so does every result |
| Settings.ParseIntEnvRoundTrip | api/smokeping_api.py:71-79 | a variable set to `str(n)` reads back as `n` when `n` meets the minimum and as the default otherwise, for an `n` of any length (see PyNum.PyInt under "## Left out") |
| Settings.ParseIntEnvPadded | api/smokeping_api.py:72 | whitespace around the number does not change the result |
| Settings.LoadConfig | api/smokeping_api.py:95-149 | the port and the pings per cycle are always at least 1; without overrides the ISP is the guess from the lower-cased host name and the data directory is `/var/lib/smokeping` |
| Settings.DefaultConfig | api/smokeping_api.py:95-103 | with nothing set: bind to 127.0.0.1, port 8080, `/var/lib/smokeping`, 20 pings |
| Settings.TargetsRelative | api/smokeping_api.py:108-113 | every configured target path is non-empty and relative |
| Settings.DetectIsp | api/smokeping_api.py:139-145 | the guess is "fios", "comcast" or "unknown" |
| Settings.DetectIspByPosition | api/smokeping_api.py:139-145 | "fios" exactly when "pi" occurs at position 0; "comcast" exactly when it does not and "cake" occurs somewhere; "unknown" otherwise |
| Settings.PiPrefixExamples | tests/test_smokeping_api.py:199-205 | `pi4`, `pi`, `pi-smokeping` and `picake` are "fios" |
| Settings.CakeExamples | tests/test_smokeping_api.py:209-214 | `cake-router` and `openwrt-cake` are "comcast" |
| Settings.RaspberryPiUnknown | tests/test_smokeping_api.py:207 | `raspberry-pi` is "unknown" |
| Settings.SmokepingHostUnknown | tests/test_smokeping_api.py:221 | `smokeping-host` is "unknown" |
| Settings.EmptyNameUnknown | tests/test_smokeping_api.py:222 | the empty name is "unknown" |
| Legacy.LegacyParse | api/smokeping-api.py:79-160 | an error record has null measurements |
| Legacy.LegacyParseRecord | api/smokeping-api.py:112-160 | the parse raises exactly when `int()` rejects the stripped stamp; an error record has null measurements |
| Legacy.LegacyLatencyMs | api/smokeping-api.py:136-145 | the latency is null exactly when no probe time was collected |
| Legacy.MiddleMsScaled | api/smokeping-api.py:139-144 | the hand-written middle in milliseconds is the middle of the sorted values times 1000 |
| Legacy.LegacyLossPct | api/smokeping-api.py:147-154 | the loss is null exactly when `float()` rejects the last token |
| Legacy.LegacyGetTargetData | api/smokeping-api.py:163-196 | the joined path is checked for existence first and is what the tool runs on, unresolved |
| Legacy.LegacyFromOutcome | api/smokeping-api.py:182-196 | a timeout gives "rrdtool timeout", a missing program "rrdtool not installed", any other exception its own text, a non-zero exit "rrdtool error: " followed by the error stream, and a timestamp `int()` rejects the text of that `ValueError` |
| Legacy.ExceptionTextShown | api/smokeping-api.py:195-196 | an unexpected exception's text becomes the earlier script's message, where the current script reports "Unexpected error reading RRD file" |
| Legacy.ToolMessagesShared | api/smokeping-api.py:191-194 | where both versions run the tool on the same path, a timeout or a missing program gives the same record in both, "rrdtool timeout" or "rrdtool not installed" |
| Legacy.LegacyDetectIsp | api/smokeping-api.py:54-69 | the guess is "fios" exactly when "pi" occurs anywhere in the name |
| Legacy.LatencyAgrees | api/smokeping-api.py:136-145 | the hand-written median gives the same latency as `statistics.median` in the current script |
| Legacy.LossCapped | api/smokeping-api.py:147-154 | the current loss at 20 pings is the earlier loss capped at 100.0 |
| Legacy.LossUncapped | api/smokeping-api.py:150-152 | without the cap, 25 lost out of 20 gives 125.0 |
| Legacy.RecordAgrees | api/smokeping-api.py:112-160 | after the shared checks the two versions differ only in raising on a bad timestamp where the current one reports "Invalid timestamp", and in the cap on the loss |
| Legacy.ParseAgrees | api/smokeping-api.py:79-160 | the same for whole outputs |
| Legacy.StderrLeaks | api/smokeping-api.py:182-187 | a failed run puts the tool's error stream into the message |
| Legacy.NotFoundShowsFullPath | api/smokeping-api.py:165-172 | a missing file is reported with its full path, data directory included |
| Legacy.AbsolutePathRuns | api/smokeping-api.py:165-180 | an absolute target path that exists is handed to the tool as it is |
| Legacy.FetchAgrees | api/smokeping-api.py:163-189 | where the target resolves to its joined path inside the data directory and the tool exits with 0 on text with an integer timestamp, both versions return the same record up to the cap on the loss |
| Legacy.IspDivergence | api/smokeping-api.py:64-69 | the two guesses differ exactly on names that hold "pi" and do not start with it |
| Legacy.SmokepingHostDiverges | api/smokeping-api.py:64-65 | `smokeping-host` is "fios" to the earlier script and "unknown" to the current one |
| PyStr.StripSurrounds | api/smokeping_api.py:171 | `strip()` removes a whitespace prefix and a whitespace suffix and nothing else, and what it keeps starts and ends with non-whitespace |
| PyStr.StripKeeps | api/smokeping_api.py:179-180 | stripping keeps every non-whitespace character |
| PyStr.StripPadded | api/smokeping_api.py:195 | stripping whitespace padding gives back the padded text |
| PyStr.JoinSplit | api/smokeping_api.py:171 | joining the pieces of `split(sep)` with `sep` gives back the text |
| PyStr.SplitJoin | api/smokeping_api.py:189 | splitting a join of separator-free pieces gives back the pieces |
| PyStr.SplitCount | api/smokeping_api.py:189-190 | `split(sep)` gives one more piece than there are separators |
| PyStr.SplitKeeps | api/smokeping_api.py:171-180 | a character other than the separator is in the text exactly when it is in one of the pieces |
| PyStr.WordsJoin | api/smokeping_api.py:202 | `split()` of non-empty whitespace-free words joined by blanks gives back the words |
| PyStr.Contains | api/smokeping_api.py:141 | `sub in s` holds exactly when `sub` occurs at some position of `s` |
| PyStr.ContainsNeedsFirst | api/smokeping_api.py:141 | text lacking the first character of `sub` does not contain `sub` |
| PyNum.IntRoundTrip | api/smokeping_api.py:195 | `int(str(n)) == n` for every integer, with no limit on its digits (see PyNum.PyInt under "## Left out") |
| PyNum.FloatOfDecimal | api/smokeping_api.py:232 | `float(str(n)) == n` for every integer |
| PyNum.Trunc | api/smokeping_api.py:232 | `int(x)` of a float truncates toward zero |
| PyNum.RoundHalfEven | api/smokeping_api.py:225 | the integer chosen is within one half of the value, and an exact tie goes to the even neighbour |
| PyNum.RoundNearest | api/smokeping_api.py:225 | `round(x, n)` is the grid point of `n` decimals nearest to `x`, ties to even |
| PyNum.RoundExact | api/smokeping_api.py:233 | a value already on the grid rounds to itself |
| PyNum.RoundMonotone | api/smokeping_api.py:233 | rounding never reverses the order of two values |
| PyNum.RoundNonNegative | api/smokeping_api.py:225 | a non-negative value rounds to a non-negative value |
| Stats.Sort | api/smokeping-api.py:139 | the sorted list is ascending and a permutation of the input |
| Stats.SortedUnique | api/smokeping-api.py:139 | a multiset has only one ascending arrangement |
| Stats.Median | api/smokeping_api.py:225 | the median lies between the least and the greatest value |
| Stats.MedianPositive | api/smokeping_api.py:225 | the median of positive values is positive |
| Stats.MedianIsMiddle | api/smokeping_api.py:225 | the median is the middle of every ascending arrangement of the data |
| Stats.MedianPermutation | api/smokeping_api.py:225 | the median does not depend on the order of the data |
| Stats.MedianHalves | api/smokeping_api.py:225 | at least half of the values are at most the median and at least half are at least the median |
| Seqs.FilterMapSound | api/smokeping_api.py:211-220 | every collected value comes from some token |
| Seqs.FilterMapComplete | api/smokeping_api.py:211-220 | every accepted token contributes its value |
| Seqs.FilterMapPermutation | api/smokeping_api.py:211-220 | reordering the tokens only reorders the collected values |

## Left out

- The HTTP handler, JSON encoding, CORS headers, logging and `main` are out of scope. The model stops at the record `get_target_data` returns.
- The operating system is abstract: `os.path.realpath`, `os.path.exists` and `subprocess.run` are functions of a `Host`. RootBaseAcceptsOnlyRoot assumes only that a resolved path has no doubled separator.
- The two reads of module-level globals become parameters: `dataDir` stands for `SMOKEPING_DATA_DIR` and `totalPings` for `TOTAL_PINGS`. `socket.gethostname()` is the `hostname` parameter of LoadConfig. The environment is a map.
- The warnings `_parse_int_env` prints to stderr are not modelled.
- RrdData: a missing dictionary key and a key holding `None` are the same `None`. The parser's error records have no `timestamp` key at all.
- RrdData: the timestamp is kept as the integer rather than as its ISO-8601 rendering. `datetime.fromtimestamp` raising for an out-of-range timestamp is not modelled. In `get_target_data` that exception would be reported as "Unexpected error reading RRD file".
- PyNum.PyInt: reads decimal literals of any length. CPython 3.11 and later (and the 3.10.7 and 3.9.14 security releases) refuse to convert a string of more than 4300 digits with `ValueError` by default, a limit the interpreter's settings can move, so it is left out. Its effects where it applies: a timestamp of more than 4300 digits is "Invalid timestamp" in the current script (api/smokeping_api.py:194-197) where ParseRecord reads it; in the earlier script the unguarded `int()` (api/smokeping-api.py:112) raises and the exception's text becomes the error (api/smokeping-api.py:195-196) where LegacyParse returns `Parsed`; and `_parse_int_env` returns the default (api/smokeping_api.py:71-85) where ParseIntEnv returns the value. `str()` of such an integer raises as well, so IntRoundTrip and ParseIntEnvRoundTrip go beyond what Python can do for such integers.
- PyNum.PyFloat: the spellings of infinity and NaN read as rejected. In Python a probe of `inf` would be collected as the largest probe time, so the latency is infinite only when `inf` is the middle value or one of the two middle values (`0.01 0.02 inf` still gives 20.0). A loss token of `inf` would raise `OverflowError`, which escapes the parser and becomes "Unexpected error reading RRD file" in the current script; in the earlier script it escapes `except (ValueError, TypeError, IndexError)` at api/smokeping-api.py:150-154 and becomes the error "cannot convert float infinity to integer" (api/smokeping-api.py:195-196), where LegacyLossPct gives a null loss and no error. NaN behaves as modelled, since it is skipped as a sentinel and `int(nan)` raises `ValueError`.
- PyNum.PyFloat: overflow and underflow are not modelled, since literals are read as exact reals. In Python `float("1e400")` is `inf`, with the consequences above: as the loss token it gives "Unexpected error reading RRD file" in the current script, where the model reports 100.0, and "cannot convert float infinity to integer" in the earlier one, where the model reports an uncapped percentage. `float("1e-400")` is 0.0, which the parser skips as not positive, where the model collects a tiny positive probe time. Other literals are rounded to the nearest double in Python and read exactly here.
- PyNum.Round: rounds the exact decimal value. Python rounds the nearest binary double, which can differ on values that are not exactly representable (such as `round(2.675, 2)`).
- PyStr.Lower and the digit tests cover ASCII only. Python also lower-cases and accepts non-ASCII letters and digits.
- Legacy.IntErrorMessage: `repr` of the offending text is simplified to the text between single quotes.
- The code caps the loss only from above (api/smokeping_api.py:234-236), so a negative count gives a negative loss (NegativePercent). The model follows the code, and no lower bound on the loss is promised.
- The port is only bounded below, as in the code. A value above 65535 is accepted by `_parse_int_env` and would fail later at bind time.

=== FILE: legacy.dfy ===
/** The earlier api/smokeping-api.py: the same parser with the median written
    out by hand, a fixed total of 20 pings and no cap on the loss, a timestamp
    that raises instead of being reported, `get_target_data` without the
    containment test and with the tool's error text passed through, and a
    provider guess that looks for "pi" anywhere in the host name. */
module Legacy {
  import opened Wrappers
  import opened PyStr
  import opened PyNum
  import Stats
  import opened RrdParse
  import opened TargetData
  import Settings

  const LegacyTotalPings := 20

  /** What the parser returns, or the `ValueError` that `int()` raises on the
      timestamp text `text`. */
  datatype LegacyParsed = Parsed(data: RrdData) | IntError(text: string)

  /** The hand-written median: sort, then the middle value or the mean of the
      two middle values, in milliseconds rounded to two places. */
  function LegacyLatencyMs(probes: seq<string>): (r: Option<real>)
    ensures r.None? <==> |ProbeValues(probes)| == 0
  {
    var vs := ProbeValues(probes);
    if |vs| == 0 then None
    else
      var s := Stats.Sort(vs);
      assert |s| == |multiset(s)| == |vs|;
      Some(Round(MiddleMs(s), 2))
  }

  /** The middle of a sorted sample in milliseconds, as the earlier script
      computes it: the factor 1000 applied inside each branch. */
  function MiddleMs(s: seq<real>): (ms: real)
    requires |s| > 0
  {
    var mid := |s| / 2;
    if |s| % 2 == 0 then (s[mid - 1] + s[mid]) / 2.0 * 1000.0 else s[mid] * 1000.0
  }

  lemma MiddleMsScaled(s: seq<real>)
    requires |s| > 0
    ensures MiddleMs(s) == Stats.Middle(s) * 1000.0
  {
  }

  /** `round((loss_count / 20) * 100, 1)` with no cap. */
  function LegacyPercent(count: int): real
  {
    Round(count as real / LegacyTotalPings as real * 100.0, 1)
  }

  function LegacyLossPct(token: string): (r: Option<real>)
    ensures r.None? <==> PyFloat(token).None?
  {
    match PyFloat(token)
    case Some(f) => Some(LegacyPercent(Trunc(f)))
    case None => None
  }

  /** The timestamp, which raises when it is not an integer, then at least two
      values, then the record. */
  function LegacyParseRecord(stamp: string, fields: string): (r: LegacyParsed)
    ensures r.Parsed? && r.data.error.Some? ==> r.data.latencyMs.None? && r.data.lossPct.None?
    ensures r.IntError? <==> PyInt(Strip(stamp)).None?
  {
    var text := Strip(stamp);
    match PyInt(text)
    case None => IntError(text)
    case Some(ts) =>
      var values := Words(Strip(fields));
      if |values| < 2 then Parsed(ErrorRecord(NotEnoughValues))
      else Parsed(RrdData(LegacyLatencyMs(ProbeTokens(values)), LegacyLossPct(values[|values| - 1]), Some(ts), None))
  }

  /** `parse_rrd_lastupdate(output)` of the earlier script. */
  function LegacyParse(output: string): (r: LegacyParsed)
    ensures r.Parsed? && r.data.error.Some? ==> r.data.latencyMs.None? && r.data.lossPct.None?
  {
    match CheckLines(Lines(output))
    case Rejected(m) => Parsed(ErrorRecord(m))
    case Record(stamp, fields) => LegacyParseRecord(stamp, fields)
  }

  /** `str(e)` for the `ValueError` of `int(text)`. */
  function IntErrorMessage(text: string): string
  {
    "invalid literal for int() with base 10: '" + text + "'"
  }

  // The not-found message starts with the same words as in the current
  // script, `NotFoundPrefix`; it differs in the path that follows.
  const LegacyToolErrorPrefix := "rrdtool error: "

  /** `get_target_data(name, rrdPath)` of the earlier script, with its data
      directory `dataDir`. */
  function LegacyGetTargetData(host: Host, dataDir: string, rrdPath: string): (r: Fetched)
    ensures |r.calls| >= 1 && r.calls[0] == CheckExists(PathJoin(dataDir, rrdPath))
    ensures forall i :: 0 <= i < |r.calls| && r.calls[i].RunTool? ==>
      r.calls[i] == RunTool(LastUpdateArgv(PathJoin(dataDir, rrdPath)), ToolTimeoutSeconds)
  {
    var full := PathJoin(dataDir, rrdPath);
    if !host.pathExists(full) then
      Fetched(ErrorRecord(NotFoundPrefix + full), [CheckExists(full)])
    else
      var argv := LastUpdateArgv(full);
      Fetched(LegacyFromOutcome(host.run(argv, ToolTimeoutSeconds)),
              [CheckExists(full), RunTool(argv, ToolTimeoutSeconds)])
  }

  /** The record for each way the run can end in the earlier script: the text
      of any other exception, the `ValueError` of the timestamp included,
      becomes the message. */
  function LegacyFromOutcome(o: ToolOutcome): (r: RrdData)
    ensures o.Timeout? ==> r == ErrorRecord(ToolTimedOut)
    ensures o.NotInstalled? ==> r == ErrorRecord(ToolMissing)
    ensures o.Raised? ==> r == ErrorRecord(o.detail)
    ensures o.Exited? && o.code != 0 ==> r == ErrorRecord(LegacyToolErrorPrefix + o.stderr)
    ensures o.Exited? && o.code == 0 && LegacyParse(o.stdout).IntError?
      ==> r == ErrorRecord(IntErrorMessage(LegacyParse(o.stdout).text))
  {
    match o
    case Timeout => ErrorRecord(ToolTimedOut)
    case NotInstalled => ErrorRecord(ToolMissing)
    case Raised(detail) => ErrorRecord(detail)
    case Exited(code, out, err) =>
      if code != 0 then ErrorRecord(LegacyToolErrorPrefix + err)
      else
        match LegacyParse(out)
        case Parsed(d) => d
        case IntError(text) => ErrorRecord(IntErrorMessage(text))
  }

  /** `detect_isp(hostname)` of the earlier script: "pi" anywhere in the name. */
  function LegacyDetectIsp(hostname: string): (isp: string)
    ensures isp == Settings.Fios <==> Contains(hostname, "pi")
  {
    if Contains(hostname, "pi") then Settings.Fios
    else if Contains(hostname, "cake") then Settings.Comcast
    else Settings.Unknown
  }

  // ---------------------------------------------------------------------------
  // How the two versions compare

  /** The hand-written median and `statistics.median` give the same latency. */
  lemma LatencyAgrees(probes: seq<string>)
    ensures LegacyLatencyMs(probes) == LatencyMs(probes)
  {
    var vs := ProbeValues(probes);
    if |vs| > 0 {
      var s := Stats.Sort(vs);
      assert |s| == |multiset(s)| == |vs|;
      MiddleMsScaled(s);
      assert Stats.Median(vs) == Stats.Middle(s);
    }
  }

  /** The later loss is the earlier one capped at 100.0, for the same total. */
  function Cap(p: Option<real>): Option<real>
  {
    match p
    case Some(x) => Some(if x > 100.0 then 100.0 else x)
    case None => None
  }

  lemma LossCapped(token: string)
    ensures LossPct(token, LegacyTotalPings) == Cap(LegacyLossPct(token))
  {
  }

  /** Without the cap, 25 lost out of 20 reports 125.0. */
  lemma LossUncapped()
    ensures LegacyLossPct(Decimal(25)) == Some(125.0)
  {
    FloatOfDecimal(25);
    assert Trunc(25 as real) == 25;
    assert 25 as real / 20 as real * 100.0 == OnGrid(1250, 1);
    RoundExact(1250, 1);
  }

  /** After the shared checks, the two versions agree but for two things: the
      earlier one raises where the later one reports "Invalid timestamp", and
      the later one caps the loss at 100.0. */
  lemma RecordAgrees(stamp: string, fields: string)
    ensures LegacyParseRecord(stamp, fields).IntError?
        <==> ParseRecord(stamp, fields, LegacyTotalPings).error == Some(InvalidTimestamp)
    ensures LegacyParseRecord(stamp, fields).Parsed? ==>
      var d := LegacyParseRecord(stamp, fields).data;
      ParseRecord(stamp, fields, LegacyTotalPings) == d.(lossPct := Cap(d.lossPct))
  {
    MessagesDistinct();
    var values := Words(Strip(fields));
    if PyInt(Strip(stamp)).Some? && |values| >= 2 {
      LatencyAgrees(ProbeTokens(values));
      LossCapped(values[|values| - 1]);
    }
  }

  lemma ParseAgrees(output: string)
    ensures LegacyParse(output).IntError?
        <==> ParseLastUpdate(output, LegacyTotalPings).error == Some(InvalidTimestamp)
    ensures LegacyParse(output).Parsed? ==>
      var d := LegacyParse(output).data;
      ParseLastUpdate(output, LegacyTotalPings) == d.(lossPct := Cap(d.lossPct))
  {
    MessagesDistinct();
    match CheckLines(Lines(output))
    case Rejected(m) =>
    case Record(stamp, fields) => RecordAgrees(stamp, fields);
  }

  /** The earlier script passes the tool's error stream into the record. */
  lemma StderrLeaks(host: Host, dataDir: string, rrdPath: string, code: int, out: string, err: string)
    requires var full := PathJoin(dataDir, rrdPath);
      host.pathExists(full) && host.run(LastUpdateArgv(full), ToolTimeoutSeconds) == Exited(code, out, err)
    requires code != 0
    ensures LegacyGetTargetData(host, dataDir, rrdPath).data.error == Some(LegacyToolErrorPrefix + err)
  {
  }

  /** The earlier script passes the text of an unexpected exception into the
      record; the current one replaces it with a fixed message. */
  lemma ExceptionTextShown(host: Host, dataDir: string, rrdPath: string, detail: string)
    requires var full := PathJoin(dataDir, rrdPath);
      host.pathExists(full) && host.run(LastUpdateArgv(full), ToolTimeoutSeconds) == Raised(detail)
    ensures LegacyGetTargetData(host, dataDir, rrdPath).data.error == Some(detail)
    ensures FromOutcome(Raised(detail), LegacyTotalPings).error == Some(UnexpectedError)
  {
  }

  /** A timeout and a missing `rrdtool` read the same in both versions. */
  lemma ToolMessagesShared(host: Host, dataDir: string, rrdPath: string)
    requires var full := PathJoin(dataDir, rrdPath);
      host.realpath(full) == full && Within(full, host.realpath(dataDir)) && host.pathExists(full)
    requires var o := host.run(LastUpdateArgv(PathJoin(dataDir, rrdPath)), ToolTimeoutSeconds);
      o.Timeout? || o.NotInstalled?
    ensures LegacyGetTargetData(host, dataDir, rrdPath).data
         == GetTargetData(host, dataDir, rrdPath, LegacyTotalPings).data
    ensures LegacyGetTargetData(host, dataDir, rrdPath).data.error.value in {ToolTimedOut, ToolMissing}
  {
  }

  /** A missing file is reported with its full path, data directory included. */
  lemma NotFoundShowsFullPath(host: Host, dataDir: string, rrdPath: string)
    requires !host.pathExists(PathJoin(dataDir, rrdPath))
    ensures LegacyGetTargetData(host, dataDir, rrdPath).data.error
         == Some(NotFoundPrefix + PathJoin(dataDir, rrdPath))
  {
  }

  /** Without the containment test, an absolute target path is handed to the
      tool as it is, wherever it points. */
  lemma AbsolutePathRuns(host: Host, dataDir: string, rrdPath: string)
    requires |rrdPath| > 0 && rrdPath[0] == Sep && host.pathExists(rrdPath)
    ensures LegacyGetTargetData(host, dataDir, rrdPath).calls
         == [CheckExists(rrdPath), RunTool(LastUpdateArgv(rrdPath), ToolTimeoutSeconds)]
  {
  }

  /** Where the target resolves to its joined path and passes the containment
      test, the two versions run the tool alike, and when it exits with 0 on
      text with an integer timestamp they return the same record up to the cap
      on the loss. */
  lemma FetchAgrees(host: Host, dataDir: string, rrdPath: string, out: string, err: string)
    requires var full := PathJoin(dataDir, rrdPath);
      host.realpath(full) == full && Within(full, host.realpath(dataDir)) && host.pathExists(full)
    requires host.run(LastUpdateArgv(PathJoin(dataDir, rrdPath)), ToolTimeoutSeconds) == Exited(0, out, err)
    requires LegacyParse(out).Parsed?
    ensures var d := LegacyGetTargetData(host, dataDir, rrdPath).data;
      GetTargetData(host, dataDir, rrdPath, LegacyTotalPings).data == d.(lossPct := Cap(d.lossPct))
  {
    ParseAgrees(out);
  }

  /** The two guesses differ exactly on names that hold "pi" and do not start
      with it. */
  lemma IspDivergence(hostname: string)
    ensures LegacyDetectIsp(hostname) != Settings.DetectIsp(hostname)
        <==> Contains(hostname, "pi") && !StartsWith(hostname, "pi")
  {
    Settings.DetectIspByPosition(hostname);
    if StartsWith(hostname, "pi") {
      assert OccursAt(hostname, "pi", 0);
    }
    assert Settings.Fios[0] != Settings.Comcast[0] && Settings.Fios[0] != Settings.Unknown[0];
  }

  /** "smokeping-host" is "fios" to the earlier script and "unknown" now. */
  lemma SmokepingHostDiverges()
    ensures LegacyDetectIsp("smokeping-host") == Settings.Fios
    ensures Settings.DetectIsp("smokeping-host") == Settings.Unknown
  {
    assert OccursAt("smokeping-host", "pi", 5);
    Settings.SmokepingHostUnknown();
  }
}

=== FILE: pynum.dfy ===
/** The numeric conversions the parser relies on: Python's `int(str)`, `float(str)`,
    `str(int)`, `int(float)` (truncation) and `round(x, n)`. Numbers are exact:
    integers are unbounded and floating-point values are `real`. */
module PyNum {
  import opened Wrappers
  import opened PyStr

  predicate IsDigit(c: char)
  {
    '0' <= c <= '9'
  }

  function DigitValue(c: char): nat
    requires IsDigit(c)
  {
    c as int - '0' as int
  }

  function DigitChar(d: nat): (c: char)
    requires d < 10
    ensures IsDigit(c) && DigitValue(c) == d
  {
    (d + '0' as int) as char
  }

  /** Python's `digitpart`: a digit, then digits each optionally preceded by a
      single underscore. */
  predicate IsDigitPart(s: string)
  {
    |s| > 0 && forall i :: 0 <= i < |s| ==> DigitOrJoiner(s, i)
  }

  /** Position `i` of `s` holds a digit, or an underscore between two digits. */
  predicate DigitOrJoiner(s: string, i: int)
    requires 0 <= i < |s|
  {
    IsDigit(s[i]) || (s[i] == '_' && 0 < i < |s| - 1 && IsDigit(s[i - 1]) && IsDigit(s[i + 1]))
  }

  /** The number the digits of `s` spell, most significant first, underscores skipped. */
  function DigitsValue(s: string): nat
    decreases |s|
  {
    if |s| == 0 then 0
    else
      var c := s[|s| - 1];
      if IsDigit(c) then DigitsValue(s[..|s| - 1]) * 10 + DigitValue(c)
      else DigitsValue(s[..|s| - 1])
  }

  /** How many digits `s` holds. */
  function DigitCount(s: string): nat
  {
    if |s| == 0 then 0
    else DigitCount(s[..|s| - 1]) + (if IsDigit(s[|s| - 1]) then 1 else 0)
  }

  /** `10 ** p`; never zero, so the fraction of a mantissa can divide by it. */
  function Pow10(p: nat): (n: nat)
    ensures n >= 1
  {
    if p == 0 then 1 else 10 * Pow10(p - 1)
  }

  /** `10 ** e` for a possibly negative exponent. */
  function Scale(e: int): (r: real)
    ensures r > 0.0
  {
    if e >= 0 then Pow10(e) as real else 1.0 / Pow10(-e) as real
  }

  predicate IsSign(c: char)
  {
    c == '+' || c == '-'
  }

  /** An optional sign followed by a digitpart: the integer literal grammar of
      `int()` in base 10, once surrounding whitespace is removed. */
  function IntLiteral(s: string): (r: Option<int>)
    ensures r.Some? ==> |s| > 0 && (IsDigit(s[0]) || IsSign(s[0]))
  {
    if |s| > 0 && IsSign(s[0]) then
      if IsDigitPart(s[1..]) then
        var v: int := DigitsValue(s[1..]);
        Some(if s[0] == '-' then -v else v)
      else None
    else if IsDigitPart(s) then
      assert DigitOrJoiner(s, 0);
      Some(DigitsValue(s))
    else None
  }

  /** `int(s)` for a `str` argument: `None` where Python raises `ValueError`. */
  function PyInt(s: string): Option<int>
  {
    IntLiteral(Strip(s))
  }

  /** The digits of a natural number, most significant first. */
  function NatDigits(n: nat): (r: string)
    ensures |r| > 0 && forall i :: 0 <= i < |r| ==> IsDigit(r[i])
  {
    if n < 10 then [DigitChar(n)] else NatDigits(n / 10) + [DigitChar(n % 10)]
  }

  /** `str(n)` for an integer. */
  function Decimal(n: int): string
  {
    if n < 0 then "-" + NatDigits(-n) else NatDigits(n)
  }

  lemma {:induction false} NatDigitsValue(n: nat)
    ensures DigitsValue(NatDigits(n)) == n
    ensures DigitCount(NatDigits(n)) == |NatDigits(n)|
    decreases n
  {
    var r := NatDigits(n);
    if n >= 10 {
      NatDigitsValue(n / 10);
      assert r[..|r| - 1] == NatDigits(n / 10);
    }
  }

  predicate AllDigits(s: string)
  {
    forall i :: 0 <= i < |s| ==> IsDigit(s[i])
  }

  /** A non-empty run of digits is a digitpart, has no whitespace to strip and
      holds neither a decimal point nor an exponent mark. */
  lemma AllDigitsShape(s: string)
    requires |s| > 0 && AllDigits(s)
    ensures IsDigitPart(s) && Strip(s) == s
    ensures PlainDigits(s)
  {
    assert forall i :: 0 <= i < |s| ==> DigitOrJoiner(s, i);
    assert !IsSpace(s[0]) && !IsSpace(s[|s| - 1]);
    StripTrimmed(s);
  }

  /** Neither a decimal point nor an exponent mark occurs in `s`. */
  predicate PlainDigits(s: string)
  {
    forall j :: 0 <= j < |s| ==> !IsExponentMark(s[j]) && s[j] != '.'
  }

  /** The digits of a natural number form a plain, unpadded digitpart of that value. */
  lemma NatDigitsShape(n: nat)
    ensures IsDigitPart(NatDigits(n)) && Strip(NatDigits(n)) == NatDigits(n)
    ensures PlainDigits(NatDigits(n)) && DigitsValue(NatDigits(n)) == n
    ensures IsDigit(NatDigits(n)[0])
  {
    NatDigitsValue(n);
    AllDigitsShape(NatDigits(n));
  }

  lemma NegativeEnds(d: string)
    requires |d| > 0 && IsDigit(d[0]) && IsDigit(d[|d| - 1])
    ensures !IsSpace(("-" + d)[0]) && !IsSpace(("-" + d)[|"-" + d| - 1])
  {
    var s := "-" + d;
    assert s[|s| - 1] == d[|d| - 1];
  }

  lemma NegativePlain(d: string)
    requires PlainDigits(d)
    ensures PlainDigits("-" + d) && ("-" + d)[1..] == d
  {
    var s := "-" + d;
    assert s[1..] == d;
    forall j | 0 < j < |s| ensures !IsExponentMark(s[j]) && s[j] != '.' {
      assert s[j] == d[j - 1];
    }
  }

  /** `str(n)` has no surrounding whitespace and spells a signed digitpart. */
  lemma DecimalShape(n: int)
    ensures Strip(Decimal(n)) == Decimal(n) && PlainDigits(Decimal(n))
    ensures n >= 0 ==> !IsSign(Decimal(n)[0]) && IsDigitPart(Decimal(n)) && DigitsValue(Decimal(n)) == n
    ensures n < 0 ==> Decimal(n)[0] == '-' && IsDigitPart(Decimal(n)[1..]) && DigitsValue(Decimal(n)[1..]) == -n
  {
    if n >= 0 {
      NatDigitsShape(n);
    } else {
      var d := NatDigits(-n);
      NatDigitsShape(-n);
      assert IsDigit(d[|d| - 1]);
      NegativeEnds(d);
      StripTrimmed("-" + d);
      NegativePlain(d);
    }
  }

  /** `str(n)` is a non-empty run of digits and minus signs. */
  lemma DecimalChars(n: int)
    ensures |Decimal(n)| > 0
    ensures forall j :: 0 <= j < |Decimal(n)| ==> IsDigit(Decimal(n)[j]) || Decimal(n)[j] == '-'
  {
    if n < 0 {
      var d := NatDigits(-n);
      forall j | 0 < j < |"-" + d| ensures IsDigit(("-" + d)[j]) {
        assert ("-" + d)[j] == d[j - 1];
      }
    }
  }

  /** `int(str(n)) == n`. */
  lemma IntRoundTrip(n: int)
    ensures PyInt(Decimal(n)) == Some(n)
  {
    DecimalShape(n);
  }

  /** The value of a mantissa `[digitpart] "." digitpart | digitpart ["."]`. */
  function Mantissa(m: string): Option<real>
  {
    if '.' !in m then
      if IsDigitPart(m) then Some(DigitsValue(m) as real) else None
    else
      var d := FirstIndex(m, '.');
      var whole, frac := m[..d], m[d + 1..];
      if (whole == "" || IsDigitPart(whole)) && (frac == "" || IsDigitPart(frac)) && (whole != "" || frac != "") then
        Some(DigitsValue(whole) as real + DigitsValue(frac) as real / Pow10(DigitCount(frac)) as real)
      else None
  }

  /** The position of the first `c` in `s`. */
  function FirstIndex(s: string, c: char): (k: nat)
    requires c in s
    ensures k < |s| && s[k] == c && c !in s[..k]
  {
    if s[0] == c then 0
    else
      var k := FirstIndex(s[1..], c) + 1;
      assert s[..k] == [s[0]] + s[1..][..k - 1];
      k
  }

  predicate IsExponentMark(c: char)
  {
    c == 'e' || c == 'E'
  }

  /** The position of the first exponent mark in `s`, or `|s|` when there is none. */
  function ExponentAt(s: string): (k: nat)
    ensures k <= |s| && (k < |s| ==> IsExponentMark(s[k]))
    ensures forall j :: 0 <= j < k ==> !IsExponentMark(s[j])
  {
    if |s| == 0 || IsExponentMark(s[0]) then 0 else ExponentAt(s[1..]) + 1
  }

  /** `floatnumber`: a mantissa with an optional `e`/`E` exponent. */
  function UnsignedFloat(s: string): Option<real>
  {
    var k := ExponentAt(s);
    match Mantissa(s[..k])
    case None => None
    case Some(v) =>
      if k == |s| then Some(v)
      else
        match IntLiteral(s[k + 1..])
        case None => None
        case Some(e) => Some(v * Scale(e))
  }

  /** A finite decimal floating-point literal with an optional sign. */
  function FloatLiteral(s: string): Option<real>
  {
    if |s| > 0 && IsSign(s[0]) then
      match UnsignedFloat(s[1..])
      case None => None
      case Some(v) => Some(if s[0] == '-' then -v else v)
    else UnsignedFloat(s)
  }

  /** `float(s)` for a `str` argument: `None` where Python raises `ValueError`
      and for the spellings of infinity and NaN. */
  function PyFloat(s: string): Option<real>
  {
    FloatLiteral(Strip(s))
  }

  /** `float(str(n)) == n` for every integer. */
  lemma FloatOfDecimal(n: int)
    ensures PyFloat(Decimal(n)) == Some(n as real)
  {
    DecimalShape(n);
    var s := Decimal(n);
    if n < 0 {
      var u := s[1..];
      assert PlainDigits(u) by {
        forall j | 0 <= j < |u| ensures !IsExponentMark(u[j]) && u[j] != '.' {
          assert u[j] == s[j + 1];
        }
      }
      PlainDigitsFloat(u);
    } else {
      PlainDigitsFloat(s);
    }
  }

  /** A digitpart without point or exponent reads as its integer value. */
  lemma PlainDigitsFloat(u: string)
    requires IsDigitPart(u) && PlainDigits(u)
    ensures UnsignedFloat(u) == Some(DigitsValue(u) as real)
  {
    NoExponent(u);
    assert u[..|u|] == u;
    assert '.' !in u;
  }

  lemma NoExponent(s: string)
    requires forall j :: 0 <= j < |s| ==> !IsExponentMark(s[j])
    ensures ExponentAt(s) == |s|
  {
  }

  /** `int(x)` for a float: truncation toward zero. */
  function Trunc(x: real): (n: int)
    ensures x >= 0.0 ==> 0.0 <= n as real <= x < n as real + 1.0
    ensures x < 0.0 ==> n as real - 1.0 < x <= n as real <= 0.0
  {
    if x >= 0.0 then x.Floor else -((-x).Floor)
  }

  /** The spacing `10 ** places` of the grid a rounded value lies on, as a real. */
  function Grid(places: nat): (g: real)
    ensures g >= 1.0
  {
    Pow10(places) as real
  }

  /** The point `n` steps along the grid of `places` decimals. */
  function OnGrid(n: int, places: nat): (r: real)
    ensures r * Grid(places) == n as real
  {
    n as real / Grid(places)
  }

  /** The integer nearest to `y`, ties going to the even neighbour. */
  function RoundHalfEven(y: real): (n: int)
    ensures -0.5 <= y - n as real <= 0.5
    ensures (y - n as real == 0.5 || n as real - y == 0.5) ==> n % 2 == 0
  {
    var f := y.Floor;
    var frac := y - f as real;
    if frac < 0.5 then f
    else if frac > 0.5 then f + 1
    else if f % 2 == 0 then f
    else f + 1
  }

  /** `n` is the grid step nearest to `x` at `places` decimals, the even one on a tie. */
  predicate RoundsTo(x: real, places: nat, n: int)
  {
    var y := x * Grid(places);
    && -0.5 <= y - n as real <= 0.5
    && ((y - n as real == 0.5 || n as real - y == 0.5) ==> n % 2 == 0)
  }

  /** `round(x, places)` of a float: the value on the grid of `places` decimals
      nearest to `x`, ties going to the even step. */
  function Round(x: real, places: nat): real
  {
    OnGrid(RoundHalfEven(x * Grid(places)), places)
  }

  /** `Round` picks the nearest grid value, breaking ties toward the even step. */
  lemma RoundNearest(x: real, places: nat)
    ensures exists n :: Round(x, places) == OnGrid(n, places) && RoundsTo(x, places, n)
  {
    var n := RoundHalfEven(x * Grid(places));
    assert RoundsTo(x, places, n);
  }

  lemma RoundHalfEvenWhole(n: int)
    ensures RoundHalfEven(n as real) == n
  {
  }

  lemma RoundHalfEvenMonotone(y: real, z: real)
    requires y <= z
    ensures RoundHalfEven(y) <= RoundHalfEven(z)
  {
  }

  lemma MultiplyMonotone(a: real, b: real, g: real)
    requires a <= b && g > 0.0
    ensures a * g <= b * g
  {
  }

  lemma OnGridMonotone(a: int, b: int, places: nat)
    requires a <= b
    ensures OnGrid(a, places) <= OnGrid(b, places)
  {
    var g := Grid(places);
    assert a as real / g <= b as real / g;
  }

  lemma ScaledMonotone(x: real, y: real, places: nat)
    requires x <= y
    ensures RoundHalfEven(x * Grid(places)) <= RoundHalfEven(y * Grid(places))
  {
    MultiplyMonotone(x, y, Grid(places));
    RoundHalfEvenMonotone(x * Grid(places), y * Grid(places));
  }

  /** A value already on the grid of `places` decimals is left unchanged. */
  lemma RoundExact(n: int, places: nat)
    ensures Round(OnGrid(n, places), places) == OnGrid(n, places)
  {
    assert OnGrid(n, places) * Grid(places) == n as real;
    RoundHalfEvenWhole(n);
  }

  /** Rounding never reverses the order of two values. */
  lemma RoundMonotone(x: real, y: real, places: nat)
    requires x <= y
    ensures Round(x, places) <= Round(y, places)
  {
    ScaledMonotone(x, y, places);
    OnGridMonotone(RoundHalfEven(x * Grid(places)), RoundHalfEven(y * Grid(places)), places);
  }

  /** Rounding a non-negative value gives a non-negative value. */
  lemma RoundNonNegative(x: real, places: nat)
    requires x >= 0.0
    ensures Round(x, places) >= 0.0
  {
    RoundMonotone(0.0, x, places);
    RoundExact(0, places);
    assert OnGrid(0, places) == 0.0;
  }
}

=== FILE: pystr.dfy ===
/** The handful of Python `str` operations the parser relies on, over `seq<char>`:
    `strip`, `split(sep)`, `split()`, `startswith`, `in` and `lower`. */
module PyStr {

  /** `str.isspace()` for a single character: the ASCII whitespace and separator
      controls, NEL, NO-BREAK SPACE and the Unicode space separators. */
  predicate IsSpace(c: char)
  {
    || c == ' '
    || '\t' <= c <= '\r'
    || '\U{1C}' <= c <= '\U{1F}'
    || c == '\U{85}' || c == '\U{A0}' || c == '\U{1680}'
    || '\U{2000}' <= c <= '\U{200A}'
    || c == '\U{2028}' || c == '\U{2029}' || c == '\U{202F}' || c == '\U{205F}' || c == '\U{3000}'
  }

  predicate AllSpace(s: string)
  {
    forall i :: 0 <= i < |s| ==> IsSpace(s[i])
  }

  predicate NoSpace(s: string)
  {
    forall i :: 0 <= i < |s| ==> !IsSpace(s[i])
  }

  /** Text without whitespace holds neither a blank nor a line break. */
  lemma NoSpaceChars(s: string)
    requires NoSpace(s)
    ensures ' ' !in s && '\n' !in s
  {
  }

  /** `str.lstrip()`. */
  function LStrip(s: string): string
  {
    if |s| > 0 && IsSpace(s[0]) then LStrip(s[1..]) else s
  }

  /** `LStrip` drops the whitespace prefix and nothing else. */
  lemma {:induction false} LStripShape(s: string)
    ensures var r := LStrip(s);
      |r| <= |s| && r == s[|s| - |r|..] && AllSpace(s[..|s| - |r|]) && (|r| > 0 ==> !IsSpace(r[0]))
    decreases |s|
  {
    if |s| > 0 && IsSpace(s[0]) {
      var t := s[1..];
      var r := LStrip(t);
      LStripShape(t);
      assert t[|t| - |r|..] == s[|s| - |r|..];
      assert s[..|s| - |r|] == [s[0]] + t[..|t| - |r|];
    }
  }

  /** `str.rstrip()`. */
  function RStrip(s: string): string
  {
    if |s| > 0 && IsSpace(s[|s| - 1]) then RStrip(s[..|s| - 1]) else s
  }

  /** `RStrip` drops the whitespace suffix and nothing else. */
  lemma {:induction false} RStripShape(s: string)
    ensures var r := RStrip(s);
      |r| <= |s| && r == s[..|r|] && AllSpace(s[|r|..]) && (|r| > 0 ==> !IsSpace(r[|r| - 1]))
    decreases |s|
  {
    if |s| > 0 && IsSpace(s[|s| - 1]) {
      var r := RStrip(s[..|s| - 1]);
      RStripShape(s[..|s| - 1]);
      assert s[|r|..] == s[..|s| - 1][|r|..] + [s[|s| - 1]];
    }
  }

  /** `r` is what remains of `s` once a whitespace prefix of length `k` and a
      whitespace suffix are taken away. */
  predicate Surrounds(s: string, k: int, r: string)
  {
    0 <= k <= |s| - |r| && s[k..k + |r|] == r && AllSpace(s[..k]) && AllSpace(s[k + |r|..])
  }

  /** `str.strip()`: drops the whitespace at both ends. */
  function Strip(s: string): string
  {
    RStrip(LStrip(s))
  }

  /** What `Strip` removes is a whitespace prefix and a whitespace suffix, and
      what it keeps starts and ends with a non-whitespace character. */
  lemma StripSurrounds(s: string) returns (k: nat)
    ensures Surrounds(s, k, Strip(s))
    ensures var r := Strip(s); |r| > 0 ==> !IsSpace(r[0]) && !IsSpace(r[|r| - 1])
  {
    var l := LStrip(s);
    var r := RStrip(l);
    LStripShape(s);
    RStripShape(l);
    k := |s| - |l|;
    assert s[k..k + |r|] == r;
    assert s[k + |r|..] == l[|r|..];
  }

  /** Stripping keeps every character that is not whitespace. */
  lemma StripKeeps(s: string, c: char)
    requires !IsSpace(c)
    ensures c in Strip(s) <==> c in s
  {
    var r := Strip(s);
    var k := StripSurrounds(s);
    assert s == s[..k] + r + s[k + |r|..];
    assert c !in s[..k] && c !in s[k + |r|..];
  }

  /** No whitespace at either end. */
  predicate Trimmed(s: string)
  {
    |s| == 0 || (!IsSpace(s[0]) && !IsSpace(s[|s| - 1]))
  }

  /** Text with no whitespace at either end is its own strip. */
  lemma StripTrimmed(s: string)
    requires Trimmed(s)
    ensures Strip(s) == s
  {
  }

  /** A leading whitespace character is stripped away. */
  lemma StripLeadingSpace(s: string)
    requires |s| > 0 && IsSpace(s[0])
    ensures Strip(s) == Strip(s[1..])
  {
  }

  /** Leading whitespace before a non-whitespace character is all `lstrip` drops. */
  lemma {:induction false} LStripPrefix(pre: string, t: string)
    requires AllSpace(pre) && |t| > 0 && !IsSpace(t[0])
    ensures LStrip(pre + t) == t
    decreases |pre|
  {
    if |pre| == 0 {
      assert pre + t == t;
    } else {
      assert (pre + t)[1..] == pre[1..] + t;
      LStripPrefix(pre[1..], t);
    }
  }

  /** Trailing whitespace after a non-whitespace character is all `rstrip` drops. */
  lemma {:induction false} RStripSuffix(t: string, post: string)
    requires AllSpace(post) && |t| > 0 && !IsSpace(t[|t| - 1])
    ensures RStrip(t + post) == t
    decreases |post|
  {
    if |post| == 0 {
      assert t + post == t;
    } else {
      var s := t + post;
      assert s[..|s| - 1] == t + post[..|post| - 1];
      RStripSuffix(t, post[..|post| - 1]);
    }
  }

  /** Stripping whitespace padding gives back the padded text. */
  lemma StripPadded(pre: string, t: string, post: string)
    requires AllSpace(pre) && AllSpace(post) && |t| > 0 && Trimmed(t)
    ensures Strip(pre + t + post) == t
  {
    assert pre + t + post == pre + (t + post);
    LStripPrefix(pre, t + post);
    RStripSuffix(t, post);
  }

  /** `str.split(sep)` with an explicit one-character separator: the maximal
      separator-free pieces, empty ones included. */
  function SplitOn(s: string, sep: char): (parts: seq<string>)
    ensures |parts| >= 1
    ensures forall i :: 0 <= i < |parts| ==> sep !in parts[i]
    decreases |s|
  {
    if |s| == 0 then [""]
    else
      var rest := SplitOn(s[1..], sep);
      if s[0] == sep then [""] + rest
      else [[s[0]] + rest[0]] + rest[1..]
  }

  /** `sep.join(parts)`: the inverse of `SplitOn`. */
  function JoinOn(parts: seq<string>, sep: char): string
  {
    if |parts| == 0 then ""
    else if |parts| == 1 then parts[0]
    else parts[0] + [sep] + JoinOn(parts[1..], sep)
  }

  /** Joining two non-empty lists of pieces puts one separator between the
      two joins. */
  lemma {:induction false} JoinAppend(p: seq<string>, q: seq<string>, sep: char)
    requires |p| > 0 && |q| > 0
    ensures JoinOn(p + q, sep) == JoinOn(p, sep) + [sep] + JoinOn(q, sep)
    decreases |p|
  {
    assert (p + q)[0] == p[0] && (p + q)[1..] == p[1..] + q;
    if |p| > 1 {
      JoinAppend(p[1..], q, sep);
    }
  }

  /** Joining non-empty parts starts with the first part's first character
      and ends with the last part's last character. */
  lemma {:induction false} JoinEnds(parts: seq<string>, sep: char)
    requires |parts| > 0 && forall i :: 0 <= i < |parts| ==> |parts[i]| > 0
    ensures var j := JoinOn(parts, sep);
      |j| > 0 && j[0] == parts[0][0] && j[|j| - 1] == parts[|parts| - 1][|parts[|parts| - 1]| - 1]
    decreases |parts|
  {
    if |parts| > 1 {
      JoinEnds(parts[1..], sep);
    }
  }

  /** Splitting and re-joining gives back the text. */
  lemma {:induction false} JoinSplit(s: string, sep: char)
    ensures JoinOn(SplitOn(s, sep), sep) == s
    decreases |s|
  {
    if |s| > 0 {
      JoinSplit(s[1..], sep);
      var rest := SplitOn(s[1..], sep);
      if s[0] != sep {
        if |rest| > 1 {
          assert ([[s[0]] + rest[0]] + rest[1..])[1..] == rest[1..];
        }
      }
    }
  }

  /** Joining separator-free pieces and splitting again gives back the pieces. */
  lemma {:induction false} SplitJoin(parts: seq<string>, sep: char)
    requires |parts| >= 1
    requires forall i :: 0 <= i < |parts| ==> sep !in parts[i]
    ensures SplitOn(JoinOn(parts, sep), sep) == parts
    decreases |parts|
  {
    if |parts| == 1 {
      SplitNoSep(parts[0], sep);
    } else {
      SplitJoin(parts[1..], sep);
      SplitAround(parts[0], sep, JoinOn(parts[1..], sep));
      SplitNoSep(parts[0], sep);
      assert parts == [parts[0]] + parts[1..];
    }
  }

  /** Text without the separator is a single piece. */
  lemma {:induction false} SplitNoSep(s: string, sep: char)
    requires sep !in s
    ensures SplitOn(s, sep) == [s]
    decreases |s|
  {
    if |s| > 0 {
      assert s[0] != sep;
      SplitNoSep(s[1..], sep);
      assert [s[0]] + s[1..] == s;
    }
  }

  /** A separator splits the text into the pieces of each side. */
  lemma {:induction false} SplitAround(x: string, sep: char, y: string)
    ensures SplitOn(x + [sep] + y, sep) == SplitOn(x, sep) + SplitOn(y, sep)
    decreases |x|
  {
    var s := x + [sep] + y;
    if |x| == 0 {
      assert s[1..] == y;
    } else {
      assert s[1..] == x[1..] + [sep] + y;
      SplitAround(x[1..], sep, y);
    }
  }

  /** One separator between two separator-free pieces splits into those two. */
  lemma SplitTwo(x: string, sep: char, y: string)
    requires sep !in x && sep !in y
    ensures SplitOn(x + [sep] + y, sep) == [x, y]
  {
    SplitAround(x, sep, y);
    SplitNoSep(x, sep);
    SplitNoSep(y, sep);
  }

  /** There is one more piece than there are separators. */
  lemma {:induction false} SplitCount(s: string, sep: char)
    ensures |SplitOn(s, sep)| == multiset(s)[sep] + 1
    decreases |s|
  {
    if |s| > 0 {
      SplitCount(s[1..], sep);
      assert s == [s[0]] + s[1..];
      assert multiset(s) == multiset{s[0]} + multiset(s[1..]);
    }
  }

  /** A character other than the separator occurs in the text exactly when it
      occurs in one of the pieces. */
  lemma {:induction false} SplitKeeps(s: string, sep: char, c: char)
    requires c != sep
    ensures c in s <==> exists i :: 0 <= i < |SplitOn(s, sep)| && c in SplitOn(s, sep)[i]
    decreases |s|
  {
    if |s| > 0 {
      SplitKeeps(s[1..], sep, c);
      var rest := SplitOn(s[1..], sep);
      var parts := SplitOn(s, sep);
      if s[0] == sep {
        assert parts == [""] + rest;
        assert forall i :: 0 <= i < |rest| ==> parts[i + 1] == rest[i];
        if c in s {
          assert c in s[1..];
          var i :| 0 <= i < |rest| && c in rest[i];
          assert c in parts[i + 1];
        }
      } else {
        assert parts[0] == [s[0]] + rest[0];
        assert forall i :: 1 <= i < |rest| ==> parts[i] == rest[i];
        if c in s && c != s[0] {
          assert c in s[1..];
          var i :| 0 <= i < |rest| && c in rest[i];
          assert c in parts[i];
        }
        if c !in s {
          forall i | 0 <= i < |parts| ensures c !in parts[i] {
            if i == 0 {
              assert c !in rest[0];
            } else {
              assert c !in rest[i];
            }
          }
        }
      }
    }
  }

  /** `str.split()` with no argument: the maximal runs of non-whitespace. */
  function Words(s: string): (ws: seq<string>)
    ensures forall i :: 0 <= i < |ws| ==> |ws[i]| > 0 && NoSpace(ws[i])
    ensures |s| > 0 && !IsSpace(s[0]) ==> |ws| > 0 && ws[0][0] == s[0]
    decreases |s|
  {
    if |s| == 0 then []
    else if IsSpace(s[0]) then Words(s[1..])
    else
      var rest := Words(s[1..]);
      if |s| > 1 && !IsSpace(s[1]) then [[s[0]] + rest[0]] + rest[1..]
      else [[s[0]]] + rest
  }

  /** A word followed by a space splits off as the first word. */
  lemma {:induction false} WordsCons(w: string, t: string)
    requires |w| > 0 && NoSpace(w)
    ensures Words(w + [' '] + t) == [w] + Words(t)
    decreases |w|
  {
    var s := w + [' '] + t;
    if |w| == 1 {
      assert s[0] == w[0] && IsSpace(s[1]);
      assert s[1..] == [' '] + t;
      assert ([' '] + t)[1..] == t;
      assert Words(s[1..]) == Words(t);
      assert w == [w[0]];
    } else {
      assert s[1..] == w[1..] + [' '] + t;
      WordsCons(w[1..], t);
      assert [w[0]] + w[1..] == w;
    }
  }

  /** A single word splits to itself. */
  lemma {:induction false} WordsSingle(w: string)
    requires |w| > 0 && NoSpace(w)
    ensures Words(w) == [w]
    decreases |w|
  {
    if |w| == 1 {
      assert w[1..] == [];
      assert w == [w[0]];
    } else {
      assert NoSpace(w[1..]) by {
        forall i | 0 <= i < |w[1..]| ensures !IsSpace(w[1..][i]) {
          assert w[1..][i] == w[i + 1];
        }
      }
      WordsSingle(w[1..]);
      assert !IsSpace(w[1]);
      assert [w[0]] + w[1..] == w;
    }
  }

  /** `split()` undoes `" ".join(...)` of non-empty, space-free words. */
  lemma {:induction false} WordsJoin(ws: seq<string>)
    requires forall i :: 0 <= i < |ws| ==> |ws[i]| > 0 && NoSpace(ws[i])
    ensures Words(JoinOn(ws, ' ')) == ws
    decreases |ws|
  {
    if |ws| == 1 {
      WordsSingle(ws[0]);
    } else if |ws| > 1 {
      WordsJoin(ws[1..]);
      WordsCons(ws[0], JoinOn(ws[1..], ' '));
      assert ws == [ws[0]] + ws[1..];
    }
  }

  /** `s.startswith(p)`. */
  predicate StartsWith(s: string, p: string)
  {
    |p| <= |s| && s[..|p|] == p
  }

  /** `sub` occurs in `s` starting at position `k`. */
  predicate OccursAt(s: string, sub: string, k: int)
  {
    0 <= k <= |s| - |sub| && s[k..k + |sub|] == sub
  }

  /** `sub in s`: `sub` occurs at some position of `s`. */
  function Contains(s: string, sub: string): (b: bool)
    ensures b <==> exists k :: OccursAt(s, sub, k)
    decreases |s|
  {
    if StartsWith(s, sub) then
      assert OccursAt(s, sub, 0);
      true
    else if |s| <= |sub| then
      assert forall k :: OccursAt(s, sub, k) ==> k == 0;
      false
    else
      var r := Contains(s[1..], sub);
      assert forall k :: OccursAt(s[1..], sub, k) <==> OccursAt(s, sub, k + 1) by {
        forall k ensures OccursAt(s[1..], sub, k) <==> OccursAt(s, sub, k + 1) {
          if 0 <= k <= |s| - 1 - |sub| {
            assert s[1..][k..k + |sub|] == s[k + 1..k + 1 + |sub|];
          }
        }
      }
      assert (exists k :: OccursAt(s, sub, k)) ==> r by {
        if exists k :: OccursAt(s, sub, k) {
          var k :| OccursAt(s, sub, k);
          assert k != 0;
          assert OccursAt(s[1..], sub, k - 1);
        }
      }
      r
  }

  /** Text that lacks the first character of `sub` does not contain `sub`. */
  lemma ContainsNeedsFirst(s: string, sub: string)
    requires |sub| > 0 && sub[0] !in s
    ensures !Contains(s, sub)
  {
    forall k | 0 <= k <= |s| - |sub| ensures !OccursAt(s, sub, k) {
      assert s[k..k + |sub|][0] == s[k];
      assert s[k] in s;
    }
  }

  /** ASCII lower-casing of one character. */
  function LowerChar(c: char): char
  {
    if 'A' <= c <= 'Z' then (c as int + 32) as char else c
  }

  /** `str.lower()` restricted to ASCII letters. */
  function Lower(s: string): (r: string)
    ensures |r| == |s|
  {
    seq(|s|, i requires 0 <= i < |s| => LowerChar(s[i]))
  }
}

=== FILE: rrd_parse.dfy ===
/** `parse_rrd_lastupdate` of api/smokeping_api.py: turns the text printed by
    `rrdtool lastupdate` into a latency (median probe time in milliseconds) and
    a loss percentage, or into one of five format errors. */
module RrdParse {
  import opened Wrappers
  import opened Seqs
  import opened PyStr
  import opened PyNum
  import Stats

  /** The dictionary the parser returns. A missing key and a `None` value are
      both `None` here; `timestamp` is the Unix time whose ISO-8601 rendering
      the dictionary carries. */
  datatype RrdData = RrdData(
    latencyMs: Option<real>,
    lossPct: Option<real>,
    timestamp: Option<int>,
    error: Option<string>)

  const InvalidOutput := "Invalid RRD output"
  const NoDataLine := "No data line found"
  const MalformedLine := "Malformed data line"
  const InvalidTimestamp := "Invalid timestamp"
  const NotEnoughValues := "Not enough values"

  /** The five format errors, in the order the parser checks for them. */
  predicate IsFormatError(m: string)
  {
    m == InvalidOutput || m == NoDataLine || m == MalformedLine || m == InvalidTimestamp || m == NotEnoughValues
  }

  /** An error record: both measurements null and the message set. */
  function ErrorRecord(message: string): RrdData
  {
    RrdData(None, None, None, Some(message))
  }

  /** `output.strip().split("\n")`. */
  function Lines(output: string): seq<string>
  {
    SplitOn(Strip(output), '\n')
  }

  /** The reversed scan for the data line: the stripped form of the last line
      that, once stripped, is non-empty and holds a colon. */
  function FindDataLine(lines: seq<string>): (r: Option<string>)
    ensures r.Some? ==> HasColon(r.value)
  {
    if |lines| == 0 then None
    else
      var line := Strip(lines[|lines| - 1]);
      if |line| > 0 && HasColon(line) then Some(line)
      else FindDataLine(lines[..|lines| - 1])
  }

  predicate HasColon(line: string)
  {
    ':' in line
  }

  /** A line holds a colon exactly when its stripped form does. */
  lemma StripColon(line: string)
    ensures HasColon(line) <==> |Strip(line)| > 0 && HasColon(Strip(line))
  {
    StripKeeps(line, ':');
  }

  /** No data line exactly when no line holds a colon. */
  lemma {:induction false} FindDataLineNone(lines: seq<string>)
    ensures FindDataLine(lines).None? <==> forall i :: 0 <= i < |lines| ==> !HasColon(lines[i])
    decreases |lines|
  {
    if |lines| > 0 {
      var last := |lines| - 1;
      var init := lines[..last];
      StripColon(lines[last]);
      FindDataLineNone(init);
      if FindDataLine(lines).None? {
        forall i | 0 <= i < |lines| ensures !HasColon(lines[i]) {
          if i < last {
            assert init[i] == lines[i];
          }
        }
      } else if !HasColon(lines[last]) {
        var i :| 0 <= i < |init| && HasColon(init[i]);
        assert lines[i] == init[i];
      }
    }
  }

  /** A data line found is the stripped form of line `i`, the last line
      holding a colon. */
  lemma {:induction false} FindDataLineLast(lines: seq<string>) returns (i: nat)
    requires FindDataLine(lines).Some?
    ensures IsLastColonLine(lines, i) && FindDataLine(lines).value == Strip(lines[i])
    decreases |lines|
  {
    var last := |lines| - 1;
    var init := lines[..last];
    StripColon(lines[last]);
    if HasColon(lines[last]) {
      i := last;
    } else {
      assert FindDataLine(lines) == FindDataLine(init);
      i := FindDataLineLast(init);
      assert lines == init + [lines[last]];
      LastColonExtend(init, lines[last], i);
    }
  }

  lemma LastColonExtend(init: seq<string>, x: string, i: nat)
    requires IsLastColonLine(init, i) && !HasColon(x)
    ensures IsLastColonLine(init + [x], i)
  {
    var lines := init + [x];
    forall j | i < j < |lines| ensures !HasColon(lines[j]) {
      if j < |init| {
        assert lines[j] == init[j];
      }
    }
  }

  /** Line `i` holds a colon and no later line does. */
  predicate IsLastColonLine(lines: seq<string>, i: int)
  {
    0 <= i < |lines| && HasColon(lines[i]) && forall j :: i < j < |lines| ==> !HasColon(lines[j])
  }

  /** What the first three checks leave: the text before and after the data
      line's colon, or the message of the check that failed. */
  datatype Record = Rejected(message: string) | Record(stamp: string, fields: string)

  /** The checks shared with the legacy parser, on the lines of the stripped
      output: at least two lines, a data line, and exactly one colon in it. */
  function CheckLines(lines: seq<string>): (r: Record)
    ensures r.Rejected? ==> r.message == InvalidOutput || r.message == NoDataLine || r.message == MalformedLine
    ensures r.Record? ==> !HasColon(r.stamp) && !HasColon(r.fields)
  {
    if |lines| < 2 then Rejected(InvalidOutput)
    else
      match FindDataLine(lines)
      case None => Rejected(NoDataLine)
      case Some(line) =>
        var parts := SplitOn(line, ':');
        if |parts| != 2 then Rejected(MalformedLine)
        else Record(parts[0], parts[1])
  }

  /** A probe token that stands for "no reply": `u`, `nan` or `-nan` in any case. */
  predicate IsSentinel(t: string)
  {
    var l := Lower(t);
    l == "u" || l == "nan" || l == "-nan"
  }

  /** The probe time a token contributes: none for a sentinel, for text `float()`
      rejects, and for a value that is not strictly positive. */
  function ReadProbe(t: string): (r: Option<real>)
    ensures r.Some? <==> !IsSentinel(t) && PyFloat(t).Some? && PyFloat(t).value > 0.0
    ensures r.Some? ==> r.value == PyFloat(t).value
  {
    if IsSentinel(t) then None
    else
      match PyFloat(t)
      case Some(v) => if v > 0.0 then Some(v) else None
      case None => None
  }

  /** The valid probe times among `tokens`, in their order. */
  function ProbeValues(tokens: seq<string>): (vs: seq<real>)
    ensures |vs| <= |tokens|
    ensures forall k :: 0 <= k < |vs| ==> vs[k] > 0.0
  {
    var vs := FilterMap(tokens, ReadProbe);
    assert forall k :: 0 <= k < |vs| ==> vs[k] > 0.0 by {
      forall k | 0 <= k < |vs| ensures vs[k] > 0.0 {
        FilterMapSound(tokens, ReadProbe, vs[k]);
      }
    }
    vs
  }

  /** `round(seconds * 1000, 2)`: a time in seconds as milliseconds on a
      0.01 grid. */
  function Milliseconds(seconds: real): (ms: real)
    requires seconds >= 0.0
    ensures ms >= 0.0
  {
    RoundNonNegative(seconds * 1000.0, 2);
    Round(seconds * 1000.0, 2)
  }

  /** `round(median(values) * 1000, 2)` over the valid probe times, or null
      when there are none. */
  function LatencyMs(probes: seq<string>): (r: Option<real>)
    ensures r.None? <==> |ProbeValues(probes)| == 0
  {
    var vs := ProbeValues(probes);
    if |vs| == 0 then None
    else
      Stats.MedianPositive(vs);
      Some(Milliseconds(Stats.Median(vs)))
  }

  /** No latency exactly when no probe token yields a valid time. */
  lemma LatencyNone(probes: seq<string>)
    ensures LatencyMs(probes).None? <==> forall i :: 0 <= i < |probes| ==> ReadProbe(probes[i]).None?
  {
    if LatencyMs(probes).None? {
      forall i | 0 <= i < |probes| ensures ReadProbe(probes[i]).None? {
        if ReadProbe(probes[i]).Some? {
          FilterMapComplete(probes, ReadProbe, i);
        }
      }
    } else {
      var vs := ProbeValues(probes);
      FilterMapSound(probes, ReadProbe, vs[0]);
    }
  }

  /** `round((count / totalPings) * 100, 1)`, capped at 100.0. */
  function CappedPercent(count: int, totalPings: int): (pct: real)
    requires totalPings > 0
    ensures pct <= 100.0
  {
    var pct := Round(count as real / totalPings as real * 100.0, 1);
    if pct > 100.0 then 100.0 else pct
  }

  /** The loss percentage from the last token, whose numeric value is
      truncated toward zero to a count; null when the total is not positive or
      the token is not a number. */
  function LossPct(token: string, totalPings: int): (r: Option<real>)
    ensures r.None? <==> totalPings <= 0 || PyFloat(token).None?
    ensures r.Some? ==> r.value <= 100.0
  {
    if totalPings > 0 then
      match PyFloat(token)
      case Some(f) => Some(CappedPercent(Trunc(f), totalPings))
      case None => None
    else None
  }

  /** The tokens between the first (uptime) and the last (loss count). */
  function ProbeTokens(values: seq<string>): seq<string>
    requires |values| >= 2
  {
    values[1..|values| - 1]
  }

  /** What follows the first three checks: the timestamp, then at least two
      values, then the record. */
  function ParseRecord(stamp: string, fields: string, totalPings: int): (r: RrdData)
    ensures r.error.Some? ==> r.latencyMs.None? && r.lossPct.None? && r.timestamp.None?
    ensures r.error.Some? ==> r.error.value == InvalidTimestamp || r.error.value == NotEnoughValues
    ensures r.error.None? <==> r.timestamp.Some?
    ensures r.lossPct.Some? ==> r.lossPct.value <= 100.0
  {
    match PyInt(Strip(stamp))
    case None => ErrorRecord(InvalidTimestamp)
    case Some(ts) =>
      var values := Words(Strip(fields));
      if |values| < 2 then ErrorRecord(NotEnoughValues)
      else RrdData(LatencyMs(ProbeTokens(values)), LossPct(values[|values| - 1], totalPings), Some(ts), None)
  }

  /** `parse_rrd_lastupdate(output)` with `TOTAL_PINGS == totalPings`. */
  function ParseLastUpdate(output: string, totalPings: int): (r: RrdData)
    ensures r.error.Some? ==> r.latencyMs.None? && r.lossPct.None? && r.timestamp.None?
    ensures r.error.Some? ==> IsFormatError(r.error.value)
    ensures r.error.None? <==> r.timestamp.Some?
    ensures r.lossPct.Some? ==> r.lossPct.value <= 100.0
  {
    match CheckLines(Lines(output))
    case Rejected(m) => ErrorRecord(m)
    case Record(stamp, fields) => ParseRecord(stamp, fields, totalPings)
  }

  // ---------------------------------------------------------------------------
  // Latency

  /** The latency does not depend on the order of the probe tokens. */
  lemma LatencyOrderIndependent(a: seq<string>, b: seq<string>)
    requires multiset(a) == multiset(b)
    ensures LatencyMs(a) == LatencyMs(b)
  {
    FilterMapPermutation(a, b, ReadProbe);
    var va, vb := ProbeValues(a), ProbeValues(b);
    assert |va| == |multiset(va)| == |multiset(vb)| == |vb|;
    if |va| > 0 {
      Stats.MedianPermutation(va, vb);
    }
  }

  /** A token that yields no probe time can be dropped from anywhere without
      changing which times are collected. */
  lemma SkippedTokenIrrelevant(pre: seq<string>, t: string, post: seq<string>)
    requires ReadProbe(t).None?
    ensures ProbeValues(pre + [t] + post) == ProbeValues(pre + post)
  {
    FilterMapAppend(pre, [t] + post, ReadProbe);
    FilterMapAppend([t], post, ReadProbe);
    FilterMapAppend(pre, post, ReadProbe);
    assert pre + [t] + post == pre + ([t] + post);
  }

  /** The latency is the middle of the valid probe times once sorted: the
      middle one for an odd count, the mean of the two middle ones otherwise,
      in milliseconds rounded to two places. */
  lemma LatencyIsMiddle(probes: seq<string>, sorted: seq<real>)
    requires |sorted| > 0 && Stats.Sorted(sorted)
    requires multiset(sorted) == multiset(ProbeValues(probes))
    ensures LatencyMs(probes) == Some(Round(Stats.Middle(sorted) * 1000.0, 2))
  {
    var vs := ProbeValues(probes);
    assert |vs| == |multiset(vs)| == |sorted|;
    Stats.MedianIsMiddle(vs, sorted);
  }

  /** A sentinel never contributes, whatever its case. */
  lemma SentinelsSkipped()
    ensures ReadProbe("U").None? && ReadProbe("u").None?
    ensures ReadProbe("NaN").None? && ReadProbe("-NAN").None? && ReadProbe("-nan").None?
  {
    assert Lower("U") == "u" && Lower("u") == "u";
    assert Lower("NaN") == "nan" && Lower("-NAN") == "-nan" && Lower("-nan") == "-nan";
  }

  // ---------------------------------------------------------------------------
  // Loss

  /** Up to the total, the percentage is the count's share of the total on a
      0.1 grid: the cap never fires. */
  lemma PercentBelowCap(count: int, totalPings: int)
    requires 0 < totalPings && count <= totalPings
    ensures CappedPercent(count, totalPings) == Round(count as real / totalPings as real * 100.0, 1)
  {
    var x := count as real / totalPings as real * 100.0;
    assert count as real / totalPings as real <= 1.0;
    RoundMonotone(x, 100.0, 1);
    RoundExact(1000, 1);
    assert OnGrid(1000, 1) == 100.0;
  }

  /** A count at or above the total reports exactly 100.0. */
  lemma PercentSaturates(count: int, totalPings: int)
    requires 0 < totalPings <= count
    ensures CappedPercent(count, totalPings) == 100.0
  {
    var x := count as real / totalPings as real * 100.0;
    assert count as real / totalPings as real >= 1.0;
    RoundMonotone(100.0, x, 1);
    RoundExact(1000, 1);
    assert OnGrid(1000, 1) == 100.0;
  }

  /** A larger count never reports a smaller percentage. */
  lemma PercentMonotone(a: int, b: int, totalPings: int)
    requires 0 < totalPings && a <= b
    ensures CappedPercent(a, totalPings) <= CappedPercent(b, totalPings)
  {
    var t := totalPings as real;
    assert a as real / t <= b as real / t;
    RoundMonotone(a as real / t * 100.0, b as real / t * 100.0, 1);
  }

  /** Only the top is capped: a negative count gives a negative percentage. */
  lemma NegativePercent()
    ensures CappedPercent(-5, 20) == -25.0
  {
    assert -5 as real / 20 as real * 100.0 == OnGrid(-250, 1);
    RoundExact(-250, 1);
  }

  /** The count is read from the token as a number truncated toward zero: the
      decimal text of `n` counts as `n`. */
  lemma LossOfDecimal(n: int, totalPings: int)
    requires 0 < totalPings
    ensures LossPct(Decimal(n), totalPings) == Some(CappedPercent(n, totalPings))
  {
    FloatOfDecimal(n);
    assert Trunc(n as real) == n;
  }

  /** A fractional count is cut toward zero: a non-negative value between `n`
      and `n + 1` counts as `n`, so "12.9" out of 20 is 60.0. */
  lemma LossOfValue(token: string, x: real, n: int, totalPings: int)
    requires 0 < totalPings && PyFloat(token) == Some(x)
    requires 0.0 <= x && n as real <= x < n as real + 1.0
    ensures LossPct(token, totalPings) == Some(CappedPercent(n, totalPings))
  {
    assert Trunc(x) == n;
  }

  /** A negative value between `n - 1` and `n` counts as `n`, toward zero. */
  lemma LossOfNegativeValue(token: string, x: real, n: int, totalPings: int)
    requires 0 < totalPings && PyFloat(token) == Some(x)
    requires x < 0.0 && n as real - 1.0 < x <= n as real
    ensures LossPct(token, totalPings) == Some(CappedPercent(n, totalPings))
  {
    assert Trunc(x) == n;
  }

  // ---------------------------------------------------------------------------
  // Reading back what rrdtool prints

  /** A field of the data line: non-empty, without whitespace or colon. */
  predicate IsField(t: string)
  {
    |t| > 0 && NoSpace(t) && ':' !in t
  }

  /** The data line `stamp: v1 v2 ...`. */
  function DataLine(stamp: string, fields: seq<string>): string
  {
    stamp + ": " + JoinOn(fields, ' ')
  }

  /** The output of `rrdtool lastupdate`: a header line naming the data
      sources, a blank line, and the data line. */
  function Render(header: string, stamp: string, fields: seq<string>): string
  {
    header + "\n\n" + DataLine(stamp, fields)
  }

  /** The joined fields hold neither a line break nor a colon. */
  lemma JoinedChars(fields: seq<string>)
    requires |fields| > 0 && forall i :: 0 <= i < |fields| ==> IsField(fields[i])
    ensures '\n' !in JoinOn(fields, ' ') && !HasColon(JoinOn(fields, ' '))
  {
    var j := JoinOn(fields, ' ');
    forall i | 0 <= i < |fields| ensures ' ' !in fields[i] && '\n' !in fields[i] {
      NoSpaceChars(fields[i]);
    }
    SplitJoin(fields, ' ');
    SplitKeeps(j, ' ', '\n');
    SplitKeeps(j, ' ', ':');
  }

  /** The joined fields have no whitespace at either end and split back into
      the fields. */
  lemma JoinedWords(fields: seq<string>)
    requires |fields| > 0 && forall i :: 0 <= i < |fields| ==> IsField(fields[i])
    ensures var j := JoinOn(fields, ' ');
      |j| > 0 && !IsSpace(j[0]) && !IsSpace(j[|j| - 1]) && Strip(j) == j && Words(j) == fields
  {
    var j := JoinOn(fields, ' ');
    var last := fields[|fields| - 1];
    assert !IsSpace(fields[0][0]) && !IsSpace(last[|last| - 1]);
    JoinEnds(fields, ' ');
    StripTrimmed(j);
    WordsJoin(fields);
  }

  lemma ColonSpace(a: string, b: string)
    ensures a + ": " + b == a + [':'] + (" " + b)
    ensures (a + ": " + b)[|a|] == ':'
  {
    assert ": " == [':'] + " ";
  }

  lemma DataLineTrimmed(stamp: string, fields: seq<string>)
    requires IsField(stamp)
    requires |fields| > 0 && forall i :: 0 <= i < |fields| ==> IsField(fields[i])
    ensures var d := DataLine(stamp, fields);
      '\n' !in d && HasColon(d) && |d| > 0 && Trimmed(d)
  {
    var j := JoinOn(fields, ' ');
    var d := DataLine(stamp, fields);
    JoinedChars(fields);
    JoinedWords(fields);
    NoSpaceChars(stamp);
    ColonSpace(stamp, j);
    assert d[0] == stamp[0] && d[|d| - 1] == j[|j| - 1];
  }

  lemma DataLineSplit(stamp: string, fields: seq<string>)
    requires IsField(stamp)
    requires |fields| > 0 && forall i :: 0 <= i < |fields| ==> IsField(fields[i])
    ensures SplitOn(DataLine(stamp, fields), ':') == [stamp, " " + JoinOn(fields, ' ')]
  {
    var j := JoinOn(fields, ' ');
    ColonSpace(stamp, j);
    JoinedChars(fields);
    SplitTwo(stamp, ':', " " + j);
  }

  lemma RenderedLines(header: string, d: string)
    requires '\n' !in header && '\n' !in d
    ensures SplitOn(header + "\n\n" + d, '\n') == [header, "", d]
  {
    assert header + "\n\n" + d == header + ['\n'] + ([] + ['\n'] + d);
    SplitAround(header, '\n', [] + ['\n'] + d);
    SplitAround([], '\n', d);
    SplitNoSep(header, '\n');
    SplitNoSep([], '\n');
    SplitNoSep(d, '\n');
  }

  lemma RenderedTrimmed(header: string, stamp: string, fields: seq<string>)
    requires |header| > 0 && !IsSpace(header[0]) && '\n' !in header
    requires |fields| > 0 && forall i :: 0 <= i < |fields| ==> IsField(fields[i])
    ensures Trimmed(Render(header, stamp, fields)) && |Render(header, stamp, fields)| > 0
    ensures Strip(Render(header, stamp, fields)) == Render(header, stamp, fields)
  {
    var j := JoinOn(fields, ' ');
    var out := Render(header, stamp, fields);
    JoinedWords(fields);
    var d := DataLine(stamp, fields);
    assert d[|d| - 1] == j[|j| - 1];
    assert out[0] == header[0] && out[|out| - 1] == j[|j| - 1];
    StripTrimmed(out);
  }

  /** A last line that holds a colon and has nothing to strip is the data line. */
  lemma LastLineFound(lines: seq<string>)
    requires |lines| > 0 && HasColon(lines[|lines| - 1]) && Trimmed(lines[|lines| - 1])
    ensures FindDataLine(lines) == Some(lines[|lines| - 1])
  {
    StripTrimmed(lines[|lines| - 1]);
  }

  /** Rendered output splits into the header, a blank line and the data line. */
  lemma RenderedSplit(header: string, stamp: string, fields: seq<string>)
    requires |header| > 0 && !IsSpace(header[0]) && '\n' !in header
    requires IsField(stamp)
    requires |fields| > 0 && forall i :: 0 <= i < |fields| ==> IsField(fields[i])
    ensures Lines(Render(header, stamp, fields)) == [header, "", DataLine(stamp, fields)]
  {
    RenderedTrimmed(header, stamp, fields);
    DataLineTrimmed(stamp, fields);
    RenderedLines(header, DataLine(stamp, fields));
  }

  /** Whitespace around rendered output, such as the line break that ends the
      tool's standard output, is stripped before the lines are cut. */
  lemma PaddedLines(pre: string, header: string, stamp: string, fields: seq<string>, post: string)
    requires AllSpace(pre) && AllSpace(post)
    requires |header| > 0 && !IsSpace(header[0]) && '\n' !in header
    requires |fields| > 0 && forall i :: 0 <= i < |fields| ==> IsField(fields[i])
    ensures Lines(pre + Render(header, stamp, fields) + post) == Lines(Render(header, stamp, fields))
  {
    RenderedTrimmed(header, stamp, fields);
    StripPadded(pre, Render(header, stamp, fields), post);
  }

  /** The three format checks pass on rendered output, whatever whitespace
      surrounds it, and cut the data line at its colon. */
  lemma RenderedRecord(pre: string, header: string, stamp: string, fields: seq<string>, post: string)
    requires AllSpace(pre) && AllSpace(post)
    requires |header| > 0 && !IsSpace(header[0]) && '\n' !in header
    requires IsField(stamp)
    requires |fields| > 0 && forall i :: 0 <= i < |fields| ==> IsField(fields[i])
    ensures CheckLines(Lines(pre + Render(header, stamp, fields) + post))
         == Record(stamp, " " + JoinOn(fields, ' '))
  {
    var d := DataLine(stamp, fields);
    PaddedLines(pre, header, stamp, fields, post);
    RenderedSplit(header, stamp, fields);
    DataLineTrimmed(stamp, fields);
    DataLineSplit(stamp, fields);
    RecordOfLines(header, d, stamp, " " + JoinOn(fields, ' '));
  }

  /** Output whose lines are a header, a blank line and a trimmed data line
      with one colon is cut at that colon. */
  lemma RecordOfLines(header: string, d: string, stamp: string, rest: string)
    requires HasColon(d) && Trimmed(d) && SplitOn(d, ':') == [stamp, rest]
    ensures CheckLines([header, "", d]) == Record(stamp, rest)
  {
    LastLineFound([header, "", d]);
  }

  /** Output in the shape rrdtool prints, with any whitespace around it, is
      read back field by field: the stamp as the timestamp, the first field
      skipped as the uptime, the last field as the loss count and the fields
      between as probe times. */
  lemma ParseRendered(pre: string, header: string, stamp: string, fields: seq<string>, post: string, totalPings: int)
    requires AllSpace(pre) && AllSpace(post)
    requires |header| > 0 && !IsSpace(header[0]) && '\n' !in header
    requires IsField(stamp)
    requires |fields| > 0 && forall i :: 0 <= i < |fields| ==> IsField(fields[i])
    ensures ParseLastUpdate(pre + Render(header, stamp, fields) + post, totalPings)
         == if PyInt(stamp).None? then ErrorRecord(InvalidTimestamp)
            else if |fields| < 2 then ErrorRecord(NotEnoughValues)
            else RrdData(LatencyMs(fields[1..|fields| - 1]), LossPct(fields[|fields| - 1], totalPings),
                         PyInt(stamp), None)
  {
    var j := JoinOn(fields, ' ');
    RenderedRecord(pre, header, stamp, fields, post);
    JoinedWords(fields);
    StripTrimmed(stamp);
    StripLeadingSpace(" " + j);
    assert (" " + j)[1..] == j;
  }

  /** With the stamp written as `str(ts)` and at least two fields, the parse
      succeeds with timestamp `ts`. */
  lemma ParseRenderedStamp(pre: string, header: string, ts: int, fields: seq<string>, post: string, totalPings: int)
    requires AllSpace(pre) && AllSpace(post)
    requires |header| > 0 && !IsSpace(header[0]) && '\n' !in header
    requires |fields| >= 2 && forall i :: 0 <= i < |fields| ==> IsField(fields[i])
    ensures var r := ParseLastUpdate(pre + Render(header, Decimal(ts), fields) + post, totalPings);
      r.error.None? && r.timestamp == Some(ts)
  {
    DecimalChars(ts);
    IntRoundTrip(ts);
    ParseRendered(pre, header, Decimal(ts), fields, post, totalPings);
  }

  /** A data line with nothing but whitespace before or after it, the header
      missing, is rejected as a whole: one line is not enough. */
  lemma DataLineAloneRejected(pre: string, stamp: string, fields: seq<string>, post: string, totalPings: int)
    requires AllSpace(pre) && AllSpace(post)
    requires IsField(stamp)
    requires |fields| > 0 && forall i :: 0 <= i < |fields| ==> IsField(fields[i])
    ensures ParseLastUpdate(pre + DataLine(stamp, fields) + post, totalPings) == ErrorRecord(InvalidOutput)
  {
    DataLineTrimmed(stamp, fields);
    StripPadded(pre, DataLine(stamp, fields), post);
    ErrorInvalidOutput(pre + DataLine(stamp, fields) + post, totalPings);
  }

  /** A sample whose every probe failed gives no latency. */
  lemma AllSentinelsNoLatency(probes: seq<string>)
    requires forall i :: 0 <= i < |probes| ==> IsSentinel(probes[i])
    ensures LatencyMs(probes).None?
  {
    LatencyNone(probes);
  }

  /** Three unknown probes give no latency. */
  lemma UnknownProbesExample()
    ensures LatencyMs(["U", "U", "U"]).None?
  {
    var p := ["U", "U", "U"];
    assert Lower("U") == "u";
    assert forall i :: 0 <= i < |p| ==> p[i] == "U";
    AllSentinelsNoLatency(p);
  }

  /** NaN probes, in any case and sign, give no latency. */
  lemma NanProbesExample()
    ensures LatencyMs(["nan", "-nan", "NaN"]).None?
  {
    var p := ["nan", "-nan", "NaN"];
    assert Lower("nan") == "nan" && Lower("-nan") == "-nan" && Lower("NaN") == "nan";
    assert IsSentinel(p[0]) && IsSentinel(p[1]) && IsSentinel(p[2]);
    AllSentinelsNoLatency(p);
  }

  /** Every ping lost reports 100.0. */
  lemma FullLossExample()
    ensures LossPct(Decimal(20), 20) == Some(100.0)
  {
    LossOfDecimal(20, 20);
    PercentSaturates(20, 20);
  }

  /** A count above the total is capped: 25 lost out of 20 reports 100.0. */
  lemma CappedLossExample()
    ensures LossPct(Decimal(25), 20) == Some(100.0)
  {
    LossOfDecimal(25, 20);
    PercentSaturates(25, 20);
  }

  // ---------------------------------------------------------------------------
  // Which error is reported

  lemma MessagesDistinct()
    ensures InvalidOutput != NoDataLine && InvalidOutput != MalformedLine
    ensures InvalidOutput != InvalidTimestamp && InvalidOutput != NotEnoughValues
    ensures NoDataLine != MalformedLine && NoDataLine != InvalidTimestamp && NoDataLine != NotEnoughValues
    ensures MalformedLine != InvalidTimestamp && MalformedLine != NotEnoughValues
    ensures InvalidTimestamp != NotEnoughValues
  {
    assert InvalidOutput[0] == 'I' && NoDataLine[0] == 'N' && MalformedLine[0] == 'M';
    assert InvalidTimestamp[0] == 'I' && NotEnoughValues[0] == 'N';
    assert |InvalidOutput| != |InvalidTimestamp| && |NoDataLine| != |NotEnoughValues|;
  }

  /** The output is rejected as a whole exactly when, once stripped, it is a
      single line. */
  lemma ErrorInvalidOutput(output: string, totalPings: int)
    ensures ParseLastUpdate(output, totalPings).error == Some(InvalidOutput) <==> '\n' !in Strip(output)
  {
    SplitCount(Strip(output), '\n');
    MessagesDistinct();
  }

  /** Some line holds a colon exactly when the output does. */
  lemma ColonInLines(output: string)
    ensures (exists i :: 0 <= i < |Lines(output)| && HasColon(Lines(output)[i])) <==> ':' in output
  {
    var lines := Lines(output);
    SplitKeeps(Strip(output), '\n', ':');
    StripKeeps(output, ':');
    assert lines == SplitOn(Strip(output), '\n');
    if ':' in output {
      var i :| 0 <= i < |lines| && ':' in lines[i];
      assert HasColon(lines[i]);
    } else {
      forall i | 0 <= i < |lines| ensures !HasColon(lines[i]) {
        assert ':' !in lines[i];
      }
    }
  }

  /** "No data line found" is reported exactly for multi-line output without
      any colon. */
  lemma ErrorNoDataLine(output: string, totalPings: int)
    ensures ParseLastUpdate(output, totalPings).error == Some(NoDataLine)
        <==> '\n' in Strip(output) && ':' !in output
  {
    SplitCount(Strip(output), '\n');
    FindDataLineNone(Lines(output));
    ColonInLines(output);
    MessagesDistinct();
  }

  /** At most one line is the last to hold a colon. */
  lemma LastColonUnique(lines: seq<string>, i: int, j: int)
    requires IsLastColonLine(lines, i) && IsLastColonLine(lines, j)
    ensures i == j
  {
  }

  /** "Malformed data line" is reported exactly for multi-line output whose
      last line holding a colon holds more than one once stripped. */
  lemma ErrorMalformedLine(output: string, totalPings: int)
    ensures ParseLastUpdate(output, totalPings).error == Some(MalformedLine)
        <==> '\n' in Strip(output)
             && exists i :: IsLastColonLine(Lines(output), i) && multiset(Strip(Lines(output)[i]))[':'] > 1
  {
    var lines := Lines(output);
    SplitCount(Strip(output), '\n');
    MessagesDistinct();
    FindDataLineNone(lines);
    if |lines| >= 2 && FindDataLine(lines).Some? {
      var i := FindDataLineLast(lines);
      var line := Strip(lines[i]);
      SplitCount(line, ':');
      assert ':' in multiset(line);
      forall j | IsLastColonLine(lines, j) ensures j == i {
        LastColonUnique(lines, i, j);
      }
    }
  }
}

=== FILE: seqs.dfy ===
/** Sequence helpers shared by the parser and the statistics: a filter-map and its
    algebra (it distributes over concatenation and respects permutations). */
module Seqs {
  import opened Wrappers

  /** Keeps, in order, the images of the elements that `f` maps to `Some`. */
  function FilterMap<A, B>(s: seq<A>, f: A -> Option<B>): (r: seq<B>)
    ensures |r| <= |s|
  {
    if |s| == 0 then []
    else
      var rest := FilterMap(s[1..], f);
      match f(s[0])
      case Some(y) => [y] + rest
      case None => rest
  }

  /** Everything kept is the image of some input element. */
  lemma {:induction false} FilterMapSound<A, B>(s: seq<A>, f: A -> Option<B>, y: B)
    requires y in FilterMap(s, f)
    ensures exists i :: 0 <= i < |s| && f(s[i]) == Some(y)
    decreases |s|
  {
    if f(s[0]) != Some(y) {
      FilterMapSound(s[1..], f, y);
      var i :| 0 <= i < |s[1..]| && f(s[1..][i]) == Some(y);
      assert f(s[i + 1]) == Some(y);
    }
  }

  /** Every element that `f` accepts contributes its image. */
  lemma {:induction false} FilterMapComplete<A, B>(s: seq<A>, f: A -> Option<B>, i: int)
    requires 0 <= i < |s| && f(s[i]).Some?
    ensures f(s[i]).value in FilterMap(s, f)
    decreases |s|
  {
    if i > 0 {
      FilterMapComplete(s[1..], f, i - 1);
    }
  }

  /** Filtering a concatenation filters each half. */
  lemma {:induction false} FilterMapAppend<A, B>(a: seq<A>, b: seq<A>, f: A -> Option<B>)
    ensures FilterMap(a + b, f) == FilterMap(a, f) + FilterMap(b, f)
    decreases |a|
  {
    if |a| > 0 {
      assert (a + b)[1..] == a[1..] + b;
      FilterMapAppend(a[1..], b, f);
    } else {
      assert a + b == b;
    }
  }

  /** When `f` accepts every element nothing is dropped. */
  lemma {:induction false} FilterMapKeepsAll<A, B>(s: seq<A>, f: A -> Option<B>)
    requires forall i :: 0 <= i < |s| ==> f(s[i]).Some?
    ensures |FilterMap(s, f)| == |s|
    decreases |s|
  {
    if |s| > 0 {
      FilterMapKeepsAll(s[1..], f);
    }
  }

  /** Taking one occurrence out of a sequence leaves the rest of its multiset. */
  lemma RemoveAt<A>(b: seq<A>, j: int)
    requires 0 <= j < |b|
    ensures b == b[..j] + [b[j]] + b[j + 1..]
    ensures multiset(b[..j] + b[j + 1..]) == multiset(b) - multiset{b[j]}
  {
    assert b == b[..j] + [b[j]] + b[j + 1..];
    assert multiset(b) == multiset(b[..j]) + multiset{b[j]} + multiset(b[j + 1..]);
  }

  /** Filter-mapping `pre + [x] + post` in terms of its three pieces. */
  lemma FilterMapAround<A, B>(pre: seq<A>, x: A, post: seq<A>, f: A -> Option<B>)
    ensures multiset(FilterMap(pre + [x] + post, f))
         == multiset(FilterMap([x], f)) + multiset(FilterMap(pre + post, f))
  {
    FilterMapAppend(pre, post, f);
    FilterMapAppend(pre + [x], post, f);
    FilterMapAppend(pre, [x], f);
  }

  /** The first element of `a` sits somewhere in any permutation `b` of `a`;
      around it lies a permutation of the rest of `a`. */
  lemma PickFirst<A>(a: seq<A>, b: seq<A>) returns (pre: seq<A>, post: seq<A>)
    requires |a| > 0 && multiset(a) == multiset(b)
    ensures b == pre + [a[0]] + post
    ensures multiset(a[1..]) == multiset(pre + post)
  {
    var x := a[0];
    assert x in multiset(b);
    var j :| 0 <= j < |b| && b[j] == x;
    RemoveAt(b, j);
    pre, post := b[..j], b[j + 1..];
    assert a == [x] + a[1..];
    assert multiset(a) == multiset{x} + multiset(a[1..]);
  }

  /** Reordering the input only reorders the output: the filter-maps of two
      permutations of one another are permutations of one another. */
  lemma {:induction false} FilterMapPermutation<A, B>(a: seq<A>, b: seq<A>, f: A -> Option<B>)
    requires multiset(a) == multiset(b)
    ensures multiset(FilterMap(a, f)) == multiset(FilterMap(b, f))
    decreases |a|
  {
    if |a| == 0 {
      assert |b| == |multiset(b)| == 0;
    } else {
      var x := a[0];
      var pre, post := PickFirst(a, b);
      FilterMapPermutation(a[1..], pre + post, f);
      FilterMapAround(pre, x, post, f);
      assert a == [x] + a[1..];
      FilterMapAppend([x], a[1..], f);
    }
  }
}

=== FILE: settings.dfy ===
/** The configuration of api/smokeping_api.py: integer settings read from the
    environment with a fallback, the other settings with their defaults, and
    the guess of the connection's provider from the host name. */
module Settings {
  import opened Wrappers
  import opened PyStr
  import opened PyNum

  /** `_parse_int_env(name, default, min_val)`, given what `os.environ.get(name)`
      returned: the value when it is an integer literal of at least `minVal`,
      otherwise the default. */
  function ParseIntEnv(value: Option<string>, default: int, minVal: int): (r: int)
    ensures r == default || (value.Some? && PyInt(value.value) == Some(r) && r >= minVal)
    ensures value.None? || PyInt(value.value).None? ==> r == default
    ensures value.Some? && PyInt(value.value).Some? && PyInt(value.value).value < minVal ==> r == default
  {
    match value
    case None => default
    case Some(text) =>
      match PyInt(text)
      case None => default
      case Some(n) => if n < minVal then default else n
  }

  /** Every setting it returns is at least the minimum, provided the default is. */
  lemma ParseIntEnvAtLeast(value: Option<string>, default: int, minVal: int)
    requires default >= minVal
    ensures ParseIntEnv(value, default, minVal) >= minVal
  {
  }

  /** A setting written as `str(n)` reads back as `n` once `n` meets the minimum,
      and as the default otherwise. */
  lemma ParseIntEnvRoundTrip(n: int, default: int, minVal: int)
    ensures ParseIntEnv(Some(Decimal(n)), default, minVal) == if n >= minVal then n else default
  {
    IntRoundTrip(n);
  }

  /** Surrounding whitespace does not matter, since `int()` strips it. */
  lemma ParseIntEnvPadded(pre: string, n: int, post: string, default: int, minVal: int)
    requires AllSpace(pre) && AllSpace(post)
    ensures ParseIntEnv(Some(pre + Decimal(n) + post), default, minVal)
         == ParseIntEnv(Some(Decimal(n)), default, minVal)
  {
    var d := Decimal(n);
    DecimalChars(n);
    assert !IsSpace(d[0]) && !IsSpace(d[|d| - 1]);
    StripPadded(pre, d, post);
  }

  // ---------------------------------------------------------------------------
  // Settings

  const DefaultBindAddress := "127.0.0.1"
  const DefaultPort := 8080
  const DefaultDataDir := "/var/lib/smokeping"
  const DefaultTotalPings := 20

  /** The settings a running service uses. */
  datatype Config = Config(
    bindAddress: string,
    port: int,
    dataDir: string,
    totalPings: int,
    isp: string)

  /** `os.environ.get(name, default)`. */
  function EnvGet(env: map<string, string>, name: string, default: string): string
  {
    if name in env then env[name] else default
  }

  /** `os.environ.get(name)`. */
  function EnvLookup(env: map<string, string>, name: string): Option<string>
  {
    if name in env then Some(env[name]) else None
  }

  /** The module-level settings, read from `env` on a host named `hostname`. */
  function LoadConfig(env: map<string, string>, hostname: string): (c: Config)
    ensures c.port >= 1 && c.totalPings >= 1
    ensures "SMOKEPING_API_ISP" !in env ==> c.isp == DetectIsp(Lower(hostname))
    ensures "SMOKEPING_API_DATA_DIR" !in env ==> c.dataDir == DefaultDataDir
  {
    Config(
      EnvGet(env, "SMOKEPING_API_BIND_ADDRESS", DefaultBindAddress),
      ParseIntEnv(EnvLookup(env, "SMOKEPING_API_PORT"), DefaultPort, 1),
      EnvGet(env, "SMOKEPING_API_DATA_DIR", DefaultDataDir),
      ParseIntEnv(EnvLookup(env, "SMOKEPING_API_TOTAL_PINGS"), DefaultTotalPings, 1),
      EnvGet(env, "SMOKEPING_API_ISP", DetectIsp(Lower(hostname))))
  }

  /** With nothing set, the service listens on 127.0.0.1:8080, reads
      /var/lib/smokeping and counts 20 pings per cycle. */
  lemma DefaultConfig(hostname: string)
    ensures var c := LoadConfig(map[], hostname);
      c == Config(DefaultBindAddress, DefaultPort, DefaultDataDir, DefaultTotalPings, DetectIsp(Lower(hostname)))
  {
  }

  /** The targets: a friendly name and a path under the data directory. */
  const Targets: map<string, string> := map[
    "cloudflare" := "external/cloudflare.rrd",
    "google" := "external/google_dns.rrd",
    "aws_use1" := "external/aws_use1.rrd",
    "netflix" := "netflix/nflx_was.rrd"]

  /** Every target path is relative, so joining it keeps the data directory. */
  lemma TargetsRelative()
    ensures forall name :: name in Targets ==> |Targets[name]| > 0 && Targets[name][0] != '/'
  {
  }

  // ---------------------------------------------------------------------------
  // Provider guess

  const Fios := "fios"
  const Comcast := "comcast"
  const Unknown := "unknown"

  /** `detect_isp(hostname)`: "pi" only at the start of the name, "cake"
      anywhere in it. */
  function DetectIsp(hostname: string): (isp: string)
    ensures isp == Fios || isp == Comcast || isp == Unknown
  {
    if StartsWith(hostname, "pi") then Fios
    else if Contains(hostname, "cake") then Comcast
    else Unknown
  }

  /** The guess by position: "fios" exactly when "pi" occurs at position 0,
      "comcast" exactly when it does not but "cake" occurs somewhere. */
  lemma DetectIspByPosition(hostname: string)
    ensures DetectIsp(hostname) == Fios <==> OccursAt(hostname, "pi", 0)
    ensures DetectIsp(hostname) == Comcast
        <==> !OccursAt(hostname, "pi", 0) && exists k :: OccursAt(hostname, "cake", k)
    ensures DetectIsp(hostname) == Unknown
        <==> !OccursAt(hostname, "pi", 0) && forall k :: !OccursAt(hostname, "cake", k)
  {
    assert Fios[0] != Comcast[0] && Fios[0] != Unknown[0] && Comcast[0] != Unknown[0];
  }

  /** Names that start with "pi" are "fios", even when they also hold "cake". */
  lemma PiPrefixExamples()
    ensures DetectIsp("pi4") == Fios && DetectIsp("pi") == Fios
    ensures DetectIsp("pi-smokeping") == Fios && DetectIsp("picake") == Fios
  {
  }

  /** A name that does not start with "p" is not "fios". */
  lemma NotPiPrefix(hostname: string)
    requires |hostname| > 0 && hostname[0] != 'p'
    ensures !StartsWith(hostname, "pi")
  {
    if |hostname| >= 2 {
      assert hostname[..2][0] == hostname[0];
    }
  }

  /** "cake" anywhere, "pi" not at the start. */
  lemma CakeExamples()
    ensures DetectIsp("cake-router") == Comcast
    ensures DetectIsp("openwrt-cake") == Comcast
  {
    NotPiPrefix("cake-router");
    NotPiPrefix("openwrt-cake");
    assert OccursAt("cake-router", "cake", 0);
    assert OccursAt("openwrt-cake", "cake", 8);
  }

  /** An empty name is "unknown". */
  lemma EmptyNameUnknown()
    ensures DetectIsp("") == Unknown
  {
    ContainsNeedsFirst("", "cake");
  }

  /** "pi" elsewhere than at the start does not count. */
  lemma RaspberryPiUnknown()
    ensures DetectIsp("raspberry-pi") == Unknown
  {
    NotPiPrefix("raspberry-pi");
    ContainsNeedsFirst("raspberry-pi", "cake");
  }

  lemma SmokepingHostUnknown()
    ensures DetectIsp("smokeping-host") == Unknown
  {
    NotPiPrefix("smokeping-host");
    ContainsNeedsFirst("smokeping-host", "cake");
  }
}

=== FILE: stats.dfy ===
/** Python's `sorted` on a list of floats and `statistics.median`, with the facts
    that make the median a median: it does not depend on the order of the data,
    it is the middle of any sorted arrangement, and at least half of the data
    lies on each side of it. */
module Stats {
  import opened Wrappers
  import opened Seqs

  predicate Sorted(s: seq<real>)
  {
    forall i, j :: 0 <= i < j < |s| ==> s[i] <= s[j]
  }

  /** Places `x` into an ascending sequence. */
  function Insert(x: real, s: seq<real>): (r: seq<real>)
    requires Sorted(s)
    ensures Sorted(r) && multiset(r) == multiset(s) + multiset{x}
  {
    if |s| == 0 then [x]
    else if x <= s[0] then [x] + s
    else
      var rest := Insert(x, s[1..]);
      assert s == [s[0]] + s[1..];
      LowerBound(s[0], x, s[1..], rest);
      [s[0]] + rest
  }

  /** A lower bound of `x` and of every value of `s` bounds every value of a
      sequence holding `s` and `x`. */
  lemma LowerBound(b: real, x: real, s: seq<real>, rest: seq<real>)
    requires b <= x && forall i :: 0 <= i < |s| ==> b <= s[i]
    requires multiset(rest) == multiset(s) + multiset{x}
    ensures forall i :: 0 <= i < |rest| ==> b <= rest[i]
  {
    forall i | 0 <= i < |rest| ensures b <= rest[i] {
      assert rest[i] in multiset(rest);
      if rest[i] != x {
        assert rest[i] in multiset(s);
      }
    }
  }

  /** `sorted(data)`: an ascending rearrangement of `data`. */
  function Sort(s: seq<real>): (r: seq<real>)
    ensures Sorted(r) && multiset(r) == multiset(s)
  {
    if |s| == 0 then []
    else
      assert s == [s[0]] + s[1..];
      Insert(s[0], Sort(s[1..]))
  }

  /** The first value of an ascending sequence is its least. */
  lemma SortedHead(a: seq<real>, y: real)
    requires Sorted(a) && y in multiset(a)
    ensures |a| > 0 && a[0] <= y
  {
    var i :| 0 <= i < |a| && a[i] == y;
  }

  /** Taking the first value off leaves the rest of the multiset. */
  lemma TailMultiset(a: seq<real>)
    requires |a| > 0
    ensures multiset(a[1..]) == multiset(a) - multiset{a[0]}
  {
    assert a == [a[0]] + a[1..];
  }

  lemma SortedTail(a: seq<real>)
    requires |a| > 0 && Sorted(a)
    ensures Sorted(a[1..])
  {
    forall i, j | 0 <= i < j < |a| - 1 ensures a[1..][i] <= a[1..][j] {
      assert a[1..][i] == a[i + 1] && a[1..][j] == a[j + 1];
    }
  }

  /** Two ascending arrangements of one multiset start alike and go on with
      ascending arrangements of one multiset. */
  lemma SortedSplit(a: seq<real>, b: seq<real>)
    requires |a| > 0 && Sorted(a) && Sorted(b) && multiset(a) == multiset(b)
    ensures |b| > 0 && a[0] == b[0]
    ensures Sorted(a[1..]) && Sorted(b[1..]) && multiset(a[1..]) == multiset(b[1..])
  {
    SortedHead(b, a[0]);
    SortedHead(a, b[0]);
    TailMultiset(a);
    TailMultiset(b);
    SortedTail(a);
    SortedTail(b);
  }

  /** There is only one ascending arrangement of a multiset of values. */
  lemma {:induction false} SortedUnique(a: seq<real>, b: seq<real>)
    requires Sorted(a) && Sorted(b) && multiset(a) == multiset(b)
    ensures a == b
    decreases |a|
  {
    assert |a| == |multiset(a)| == |multiset(b)| == |b|;
    if |a| > 0 {
      SortedSplit(a, b);
      SortedUnique(a[1..], b[1..]);
      assert a == [a[0]] + a[1..] && b == [b[0]] + b[1..];
    }
  }

  /** The middle of an ascending sequence: its middle element for an odd
      length, the mean of its two middle elements for an even one. */
  function Middle(s: seq<real>): real
    requires |s| > 0
  {
    var n := |s|;
    if n % 2 == 1 then s[n / 2] else (s[n / 2 - 1] + s[n / 2]) / 2.0
  }

  /** `statistics.median(data)`. */
  function Median(data: seq<real>): (m: real)
    requires |data| > 0
    ensures exists i :: 0 <= i < |data| && data[i] <= m
    ensures exists j :: 0 <= j < |data| && m <= data[j]
  {
    var s := Sort(data);
    var m := Middle(s);
    assert s[0] <= m <= s[|s| - 1];
    assert s[0] in multiset(data) && s[|s| - 1] in multiset(data);
    m
  }

  /** The median of positive data is positive. */
  lemma MedianPositive(data: seq<real>)
    requires |data| > 0 && forall k :: 0 <= k < |data| ==> data[k] > 0.0
    ensures Median(data) > 0.0
  {
    var i :| 0 <= i < |data| && data[i] <= Median(data);
  }

  /** The median is the middle of every ascending arrangement of the data. */
  lemma MedianIsMiddle(data: seq<real>, t: seq<real>)
    requires |data| > 0 && Sorted(t) && multiset(t) == multiset(data)
    ensures |t| == |data| && Median(data) == Middle(t)
  {
    assert |t| == |multiset(t)| == |multiset(data)| == |data|;
    SortedUnique(Sort(data), t);
  }

  /** The median does not depend on the order of the data. */
  lemma MedianPermutation(a: seq<real>, b: seq<real>)
    requires |a| > 0 && multiset(a) == multiset(b)
    ensures |b| > 0 && Median(a) == Median(b)
  {
    assert |b| == |multiset(b)| == |multiset(a)| == |a|;
    SortedUnique(Sort(a), Sort(b));
  }

  function AtMost(x: real): real -> Option<real>
  {
    y => if y <= x then Some(y) else None
  }

  function AtLeast(x: real): real -> Option<real>
  {
    y => if y >= x then Some(y) else None
  }

  /** How many of the values are at most `x`. */
  function CountAtMost(s: seq<real>, x: real): nat
  {
    |FilterMap(s, AtMost(x))|
  }

  /** How many of the values are at least `x`. */
  function CountAtLeast(s: seq<real>, x: real): nat
  {
    |FilterMap(s, AtLeast(x))|
  }

  lemma CountsPermutation(a: seq<real>, b: seq<real>, x: real)
    requires multiset(a) == multiset(b)
    ensures CountAtMost(a, x) == CountAtMost(b, x)
    ensures CountAtLeast(a, x) == CountAtLeast(b, x)
  {
    FilterMapPermutation(a, b, AtMost(x));
    FilterMapPermutation(a, b, AtLeast(x));
    assert |multiset(FilterMap(a, AtMost(x)))| == |multiset(FilterMap(b, AtMost(x)))|;
    assert |multiset(FilterMap(a, AtLeast(x)))| == |multiset(FilterMap(b, AtLeast(x)))|;
  }

  /** An ascending sequence whose first `k` values are at most `x`. */
  lemma PrefixAtMost(t: seq<real>, k: int, x: real)
    requires 0 <= k <= |t| && forall i :: 0 <= i < k ==> t[i] <= x
    ensures CountAtMost(t, x) >= k
  {
    assert t == t[..k] + t[k..];
    FilterMapAppend(t[..k], t[k..], AtMost(x));
    FilterMapKeepsAll(t[..k], AtMost(x));
  }

  /** An ascending sequence whose values from position `k` on are at least `x`. */
  lemma SuffixAtLeast(t: seq<real>, k: int, x: real)
    requires 0 <= k <= |t| && forall i :: k <= i < |t| ==> t[i] >= x
    ensures CountAtLeast(t, x) >= |t| - k
  {
    assert t == t[..k] + t[k..];
    FilterMapAppend(t[..k], t[k..], AtLeast(x));
    FilterMapKeepsAll(t[k..], AtLeast(x));
  }

  /** At least half of an ascending sequence lies on each side of its middle. */
  lemma MiddleHalves(t: seq<real>)
    requires |t| > 0 && Sorted(t)
    ensures 2 * CountAtMost(t, Middle(t)) >= |t|
    ensures 2 * CountAtLeast(t, Middle(t)) >= |t|
  {
    var m := Middle(t);
    var n := |t|;
    var k := n / 2;
    if n % 2 == 1 {
      assert forall i :: 0 <= i < k + 1 ==> t[i] <= t[k];
      PrefixAtMost(t, k + 1, m);
      assert forall i :: k <= i < n ==> t[k] <= t[i];
      SuffixAtLeast(t, k, m);
    } else {
      assert t[k - 1] <= m <= t[k];
      assert forall i :: 0 <= i < k ==> t[i] <= t[k - 1];
      PrefixAtMost(t, k, m);
      assert forall i :: k <= i < n ==> t[k] <= t[i];
      SuffixAtLeast(t, k, m);
    }
  }

  /** At least half of the data is at most the median and at least half is at
      least the median. */
  lemma MedianHalves(data: seq<real>)
    requires |data| > 0
    ensures 2 * CountAtMost(data, Median(data)) >= |data|
    ensures 2 * CountAtLeast(data, Median(data)) >= |data|
  {
    var t := Sort(data);
    assert |t| == |multiset(t)| == |data|;
    MiddleHalves(t);
    CountsPermutation(data, t, Middle(t));
  }
}

=== FILE: target_data.dfy ===
/** `get_target_data` of api/smokeping_api.py: resolves a target's file under
    the data directory, refuses anything that resolves outside it, and runs
    `rrdtool lastupdate` on it. The file system and the process runner are the
    three functions of a `Host`; the result carries the record returned and
    the calls made, in order. */
module TargetData {
  import opened Wrappers
  import opened PyStr
  import opened RrdParse

  /** How `subprocess.run` ended: it timed out, the program was missing, it
      raised something else, or it exited with a code and its two streams. */
  datatype ToolOutcome =
    | Timeout
    | NotInstalled
    | Raised(detail: string)
    | Exited(code: int, stdout: string, stderr: string)

  /** `os.path.realpath`, `os.path.exists` and `subprocess.run(argv, timeout=…)`. */
  datatype Host = Host(
    realpath: string -> string,
    pathExists: string -> bool,
    run: (seq<string>, int) -> ToolOutcome)

  /** A call on the host, as it appears in the trace. */
  datatype Call =
    | Resolve(path: string)
    | CheckExists(path: string)
    | RunTool(argv: seq<string>, timeout: int)

  datatype Fetched = Fetched(data: RrdData, calls: seq<Call>)

  const Sep: char := '/'
  const ToolTimeoutSeconds := 5

  const InvalidPath := "Invalid path"
  const NotFoundPrefix := "RRD file not found: "
  const ToolFailed := "rrdtool error reading file"
  const ToolTimedOut := "rrdtool timeout"
  const ToolMissing := "rrdtool not installed"
  const UnexpectedError := "Unexpected error reading RRD file"

  /** `os.path.join(a, b)` on POSIX: an absolute `b` replaces `a`; otherwise a
      separator goes between them unless `a` is empty or already ends in one. */
  function PathJoin(a: string, b: string): (r: string)
    ensures StartsWith(b, [Sep]) ==> r == b
    ensures !StartsWith(b, [Sep]) ==> |r| >= |a| + |b| && r[..|a|] == a && r[|r| - |b|..] == b
  {
    if StartsWith(b, [Sep]) then b
    else if |a| == 0 || a[|a| - 1] == Sep then a + b
    else a + [Sep] + b
  }

  /** The containment test: the resolved target is the base itself or starts
      with the base followed by a separator. */
  predicate Within(target: string, base: string)
  {
    target == base || StartsWith(target, base + [Sep])
  }

  /** The argument vector handed to the process runner. */
  function LastUpdateArgv(path: string): seq<string>
  {
    ["rrdtool", "lastupdate", path]
  }

  /** The record for each way the run can end. */
  function FromOutcome(o: ToolOutcome, totalPings: int): (r: RrdData)
    ensures o.Exited? && o.code == 0 ==> r == ParseLastUpdate(o.stdout, totalPings)
    ensures !(o.Exited? && o.code == 0) ==> r.latencyMs.None? && r.lossPct.None? && r.error.Some?
    ensures o.Timeout? ==> r == ErrorRecord(ToolTimedOut)
    ensures o.NotInstalled? ==> r == ErrorRecord(ToolMissing)
    ensures o.Raised? ==> r == ErrorRecord(UnexpectedError)
    ensures o.Exited? && o.code != 0 ==> r == ErrorRecord(ToolFailed)
  {
    match o
    case Timeout => ErrorRecord(ToolTimedOut)
    case NotInstalled => ErrorRecord(ToolMissing)
    case Raised(_) => ErrorRecord(UnexpectedError)
    case Exited(code, out, _) =>
      if code != 0 then ErrorRecord(ToolFailed) else ParseLastUpdate(out, totalPings)
  }

  /** `get_target_data(name, rrdPath)` with `SMOKEPING_DATA_DIR == dataDir` and
      `TOTAL_PINGS == totalPings`. */
  function GetTargetData(host: Host, dataDir: string, rrdPath: string, totalPings: int): (r: Fetched)
    ensures |r.calls| >= 2
      && r.calls[0] == Resolve(PathJoin(dataDir, rrdPath)) && r.calls[1] == Resolve(dataDir)
    ensures var target := host.realpath(PathJoin(dataDir, rrdPath));
      forall i :: 0 <= i < |r.calls| && r.calls[i].RunTool? ==>
        r.calls[i] == RunTool(LastUpdateArgv(target), ToolTimeoutSeconds)
        && Within(target, host.realpath(dataDir)) && host.pathExists(target)
    ensures r.data.error.None? ==> exists i :: 0 <= i < |r.calls| && r.calls[i].RunTool?
  {
    var full := PathJoin(dataDir, rrdPath);
    var target := host.realpath(full);
    var base := host.realpath(dataDir);
    var resolves := [Resolve(full), Resolve(dataDir)];
    if !Within(target, base) then
      Fetched(ErrorRecord(InvalidPath), resolves)
    else if !host.pathExists(target) then
      Fetched(ErrorRecord(NotFoundPrefix + rrdPath), resolves + [CheckExists(target)])
    else
      var argv := LastUpdateArgv(target);
      var calls := resolves + [CheckExists(target), RunTool(argv, ToolTimeoutSeconds)];
      assert calls[3].RunTool?;
      Fetched(FromOutcome(host.run(argv, ToolTimeoutSeconds), totalPings), calls)
  }

  // ---------------------------------------------------------------------------
  // Path containment

  /** `p` is a leading part of `q`. */
  predicate IsPrefix(p: seq<string>, q: seq<string>)
  {
    |p| <= |q| && q[..|p|] == p
  }

  /** The textual test is the component-wise one: a target is within the base
      exactly when the base's path components are the first components of the
      target's. */
  lemma WithinComponents(target: string, base: string)
    ensures Within(target, base) <==> IsPrefix(SplitOn(base, Sep), SplitOn(target, Sep))
  {
    var p, q := SplitOn(base, Sep), SplitOn(target, Sep);
    if target != base && StartsWith(target, base + [Sep]) {
      var rest := target[|base| + 1..];
      assert target == base + [Sep] + rest;
      SplitAround(base, Sep, rest);
    }
    if IsPrefix(p, q) {
      JoinSplit(base, Sep);
      JoinSplit(target, Sep);
      if |p| < |q| {
        assert q == p + q[|p|..];
        JoinAppend(p, q[|p|..], Sep);
        assert target == base + [Sep] + JoinOn(q[|p|..], Sep);
        assert target[..|base| + 1] == base + [Sep];
      } else {
        assert q == p;
      }
    }
  }

  /** A sibling whose name merely begins with the base's name is outside it. */
  lemma SiblingRejected(base: string, c: char, rest: string)
    requires c != Sep
    ensures !Within(base + [c] + rest, base)
  {
    var target := base + [c] + rest;
    assert target[|base|] == c;
    assert |base + [Sep]| > |base| && (base + [Sep])[|base|] == Sep;
  }

  /** No two separators in a row, as `os.path.realpath` returns paths. */
  predicate Canonical(path: string)
  {
    forall i :: 0 <= i < |path| - 1 ==> !(path[i] == Sep && path[i + 1] == Sep)
  }

  /** With the data directory at the root, only the root itself is within it:
      every file below it is refused. */
  lemma RootBaseAcceptsOnlyRoot(target: string)
    requires Canonical(target)
    ensures Within(target, [Sep]) <==> target == [Sep]
  {
    if |target| >= 2 {
      assert !(target[0] == Sep && target[1] == Sep);
      assert target[..2][0] == target[0] && target[..2][1] == target[1];
    }
  }

  /** Joining a relative path appends its components to the directory's. */
  lemma PathJoinComponents(a: string, b: string)
    requires |a| > 0 && a[|a| - 1] != Sep && !StartsWith(b, [Sep])
    ensures SplitOn(PathJoin(a, b), Sep) == SplitOn(a, Sep) + SplitOn(b, Sep)
  {
    SplitAround(a, Sep, b);
  }

  // ---------------------------------------------------------------------------
  // Outcomes

  /** Every message `get_target_data` can return for the target path
      `rrdPath`: its own six and the parser's five. */
  predicate FetchMessage(m: string, rrdPath: string)
  {
    m == InvalidPath || m == NotFoundPrefix + rrdPath || m == ToolFailed
    || m == ToolTimedOut || m == ToolMissing || m == UnexpectedError
    || IsFormatError(m)
  }

  /** The six messages of `get_target_data` are pairwise different, and none of
      them is one of the parser's, whatever the target path. */
  lemma FetchMessagesDistinct(rrdPath: string)
    ensures var notFound := NotFoundPrefix + rrdPath;
      notFound != InvalidPath && notFound != ToolFailed && notFound != ToolTimedOut
      && notFound != ToolMissing && notFound != UnexpectedError
    ensures InvalidPath != ToolFailed && InvalidPath != ToolTimedOut
      && InvalidPath != ToolMissing && InvalidPath != UnexpectedError
    ensures ToolFailed != ToolTimedOut && ToolFailed != ToolMissing && ToolFailed != UnexpectedError
    ensures ToolTimedOut != ToolMissing && ToolTimedOut != UnexpectedError
    ensures ToolMissing != UnexpectedError
    ensures !IsFormatError(NotFoundPrefix + rrdPath) && !IsFormatError(InvalidPath)
      && !IsFormatError(ToolFailed) && !IsFormatError(ToolTimedOut)
      && !IsFormatError(ToolMissing) && !IsFormatError(UnexpectedError)
  {
    var notFound := NotFoundPrefix + rrdPath;
    assert notFound[0] == 'R' && InvalidPath[0] == 'I' && UnexpectedError[0] == 'U';
    assert ToolFailed[0] == 'r' && ToolTimedOut[0] == 'r' && ToolMissing[0] == 'r';
    assert ToolFailed[8] == 'e' && ToolTimedOut[8] == 't' && ToolMissing[8] == 'n';
    assert InvalidOutput[0] == 'I' && NoDataLine[0] == 'N' && MalformedLine[0] == 'M';
    assert InvalidTimestamp[0] == 'I' && NotEnoughValues[0] == 'N';
    assert InvalidPath[8] != InvalidOutput[8] && InvalidPath[8] != InvalidTimestamp[8];
  }

  /** A target within the data directory that does not exist is reported as
      not found under its relative path, and the tool is never run. */
  lemma NotFound(host: Host, dataDir: string, rrdPath: string, totalPings: int)
    requires var target := host.realpath(PathJoin(dataDir, rrdPath));
      Within(target, host.realpath(dataDir)) && !host.pathExists(target)
    ensures var r := GetTargetData(host, dataDir, rrdPath, totalPings);
      r.data == ErrorRecord(NotFoundPrefix + rrdPath)
      && forall i :: 0 <= i < |r.calls| ==> !r.calls[i].RunTool?
  {
  }

  /** The message names the way the fetch ended: each of the five messages
      after the containment test comes back exactly when its cause occurred. */
  lemma MessageTellsOutcome(host: Host, dataDir: string, rrdPath: string, totalPings: int)
    ensures var e := GetTargetData(host, dataDir, rrdPath, totalPings).data.error;
      var target := host.realpath(PathJoin(dataDir, rrdPath));
      var within := Within(target, host.realpath(dataDir));
      var o := host.run(LastUpdateArgv(target), ToolTimeoutSeconds);
      var ran := within && host.pathExists(target);
      (e == Some(NotFoundPrefix + rrdPath) <==> within && !host.pathExists(target))
      && (e == Some(ToolTimedOut) <==> ran && o.Timeout?)
      && (e == Some(ToolMissing) <==> ran && o.NotInstalled?)
      && (e == Some(UnexpectedError) <==> ran && o.Raised?)
      && (e == Some(ToolFailed) <==> ran && o.Exited? && o.code != 0)
  {
    FetchMessagesDistinct(rrdPath);
  }

  /** An error leaves both measurements null, and its message is one of a
      fixed set that mentions nothing but the target's own relative path. */
  lemma ErrorMessages(host: Host, dataDir: string, rrdPath: string, totalPings: int)
    ensures var d := GetTargetData(host, dataDir, rrdPath, totalPings).data;
      d.error.Some? ==> d.latencyMs.None? && d.lossPct.None? && FetchMessage(d.error.value, rrdPath)
  {
  }

  /** The outcome with the error stream and the exception text blanked. */
  function Redact(o: ToolOutcome): ToolOutcome
  {
    match o
    case Raised(_) => Raised("")
    case Exited(code, out, _) => Exited(code, out, "")
    case _ => o
  }

  /** The host whose runner reports every outcome redacted. */
  function Redacted(host: Host): Host
  {
    Host(host.realpath, host.pathExists, (argv, t) => Redact(host.run(argv, t)))
  }

  /** The record never depends on what the tool wrote to its error stream or
      on the text of an exception the runner raised. */
  lemma NothingLeaks(host: Host, dataDir: string, rrdPath: string, totalPings: int)
    ensures GetTargetData(Redacted(host), dataDir, rrdPath, totalPings)
         == GetTargetData(host, dataDir, rrdPath, totalPings)
  {
    var target := host.realpath(PathJoin(dataDir, rrdPath));
    var o := host.run(LastUpdateArgv(target), ToolTimeoutSeconds);
    assert Redacted(host).run(LastUpdateArgv(target), ToolTimeoutSeconds) == Redact(o);
  }

  /** The containment test refuses the target exactly when the result is
      "Invalid path", and a refused target is never checked for or run. */
  lemma EscapeRefused(host: Host, dataDir: string, rrdPath: string, totalPings: int)
    ensures var r := GetTargetData(host, dataDir, rrdPath, totalPings);
      var target := host.realpath(PathJoin(dataDir, rrdPath));
      (r.data.error == Some(InvalidPath) <==> !Within(target, host.realpath(dataDir)))
      && (!Within(target, host.realpath(dataDir)) ==> |r.calls| == 2)
  {
    MessagesDistinct();
    assert InvalidPath[0] != NotFoundPrefix[0];
    assert InvalidPath[0] != ToolFailed[0] && InvalidPath[0] != ToolTimedOut[0];
    assert InvalidPath[0] != ToolMissing[0] && InvalidPath[0] != UnexpectedError[0];
    assert InvalidPath[8] != InvalidOutput[8] && InvalidPath[8] != InvalidTimestamp[8];
    assert InvalidPath[0] != NoDataLine[0] && InvalidPath[0] != MalformedLine[0];
    assert InvalidPath[0] != NotEnoughValues[0];
  }

  /** A full record comes back exactly when the target is within the data
      directory, exists, and the tool exits with status 0 printing text the
      parser accepts; it is then the parse of that text. */
  lemma Success(host: Host, dataDir: string, rrdPath: string, totalPings: int)
    ensures var r := GetTargetData(host, dataDir, rrdPath, totalPings);
      var target := host.realpath(PathJoin(dataDir, rrdPath));
      var o := host.run(LastUpdateArgv(target), ToolTimeoutSeconds);
      r.data.error.None? <==>
        Within(target, host.realpath(dataDir)) && host.pathExists(target)
        && o.Exited? && o.code == 0 && ParseLastUpdate(o.stdout, totalPings).error.None?
    ensures var r := GetTargetData(host, dataDir, rrdPath, totalPings);
      var target := host.realpath(PathJoin(dataDir, rrdPath));
      var o := host.run(LastUpdateArgv(target), ToolTimeoutSeconds);
      r.data.error.None? ==> r.data == ParseLastUpdate(o.stdout, totalPings)
  {
  }

  /** A relative target under a directory that resolves to itself passes the
      containment test when its joined path also resolves to itself. */
  lemma PlainTargetAccepted(host: Host, dataDir: string, rrdPath: string)
    requires |dataDir| > 0 && dataDir[|dataDir| - 1] != Sep && !StartsWith(rrdPath, [Sep])
    requires host.realpath(dataDir) == dataDir
    requires host.realpath(PathJoin(dataDir, rrdPath)) == PathJoin(dataDir, rrdPath)
    ensures Within(host.realpath(PathJoin(dataDir, rrdPath)), host.realpath(dataDir))
  {
    var full := PathJoin(dataDir, rrdPath);
    assert full == dataDir + [Sep] + rrdPath;
    assert full[..|dataDir| + 1] == dataDir + [Sep];
  }

  /** A target that climbs out of the data directory and resolves to
      /etc/passwd is refused before anything is checked or run. */
  lemma TraversalRefused(host: Host, totalPings: int)
    requires host.realpath("/var/lib/smokeping") == "/var/lib/smokeping"
    requires host.realpath(PathJoin("/var/lib/smokeping", "../../../etc/passwd")) == "/etc/passwd"
    ensures GetTargetData(host, "/var/lib/smokeping", "../../../etc/passwd", totalPings).data
         == ErrorRecord(InvalidPath)
    ensures |GetTargetData(host, "/var/lib/smokeping", "../../../etc/passwd", totalPings).calls| == 2
  {
    assert !Within("/etc/passwd", "/var/lib/smokeping") by {
      assert |"/etc/passwd"| < |"/var/lib/smokeping" + [Sep]|;
    }
  }
}

=== FILE: wrappers.dfy ===
/** The optional value used wherever the Python source has `None` or may fail to parse. */
module Wrappers {

  datatype Option<+T> = None | Some(value: T)
}
